=== FILE: README.md ===
# Autocomplete language engine, modelled in Dafny

This project models the language engine of an Angular autocomplete widget for
boolean filter expressions such as `age > "30" AND (city = "Paris" OR vip)`.
The engine has five parts, each a pure function of the text, an immutable
vocabulary snapshot (`GrammarData`) and flags:

- the lexer `tokenize`, the token classifier `classifyToken` and the
  parenthesis balance `countOpenParens`;
- the string and balance helpers `stripQuotes`, `isKnownValue`, a second
  `classifyToken`, `countOpenParens` and `openParensUpTo`;
- the ranking filter `smartFilter` (prefix matches, then suffix matches, then
  other substring matches, by a stable sort) and `dedupe`;
- the suggestion engine `getSuggestions`, a decision table over the types of
  the last two tokens, cut to one page;
- the validator `validateFormula`, a recursive-descent parser for
  `Expr := Term (LOGICAL Term)*` and `Term := VAR OP VALUE | VAR | '(' Expr ')'`,
  with a tolerant mode (`allowPartial`) and a strict mode.

Modules follow the source files:

| module | file | models |
|---|---|---|
| `Text` | text.dfy | JavaScript `\s`, `toLowerCase`, `startsWith`, `endsWith`, `includes` |
| `Seqs` | seqs.dfy | `Array.prototype.filter`, duplicate-freedom, prefixes, `join('')` |
| `Types` | types.dfy | `TokType` and `GrammarData` of `src/app/logic/dto/types.ts` |
| `Tokenizer` | tokenizer.dfy | `src/app/logic/utils/tokenizer.ts` |
| `TokenizerProofs` | tokenizer_proofs.dfy | properties of the lexer and the balance |
| `Utils` | utils.dfy | `src/app/logic/utils/utils.ts` |
| `Filter` | filter.dfy | `src/app/logic/utils/filter.ts` and its properties |
| `GrammarHelper` | grammar_helper.dfy | `src/app/logic/helper/grammar.helper.ts` and its properties |
| `Validator` | validator.dfy | `src/app/logic/validator/validator.ts` |
| `ValidatorProofs` | validator_proofs.dfy | modes, value-list irrelevance, characteristic inputs |
| `ValidatorGrammar` | validator_grammar.dfy | parse trees: soundness and strict completeness |

Modelling choices:

- The lexer's loop is `LexFrom(s, i)`. It returns each token with its start
  index (`Span`), and `Tokenize` keeps the texts. One iteration of the loop is
  `TokenEnd`. The lexical rules are also stated declaratively, as `Lexeme`,
  and the loop is proved to follow them.
- The parser's cursor closures (`peek`, `next`, `eof`) become an index threaded
  through the three mutually recursive functions `ParseTerm`, `ParseExpr` and
  `ParseMore`. `ParseMore` is the `while` loop of `parseExpr`. Each returns a
  `Step` holding the outcome and the index reached. The error strings are the
  datatype `ValidationError`, and `Message` maps it to the exact texts.
  The interpolated token travels in the error.
- The independent reference definition of the validator is a parse-tree
  datatype (`Term`, `Expr`, `Tail`) with a well-formedness predicate and a
  yield. Every accepted token list is a tree's yield, in either mode. In
  strict mode, over a vocabulary in which no logical is also an operator
  and `)` is neither a logical nor an operator, every well-formed tree's
  yield is accepted.
- `smartFilter` is modelled as the source computes it: score each item, keep
  the positive scores, then do a stable sort by descending score (ECMAScript
  2019 requires `Array.prototype.sort` to be stable). The sort is modelled as
  an insertion sort. Its reference definition is the three score groups
  concatenated in source order.
- `dedupe` (`Array.from(new Set(arr))`) keeps the first occurrence of each
  element.
- `getSuggestions` first picks a `Decision` (which row of the table applies),
  then computes the candidates of that row (`Offer`), then the page
  (`Page`, which is `slice(0, pageSize)`, negative sizes included).
  The default page size is `DefaultPageSize` (10). The default
  `allowPartial` is `DefaultAllowPartial` (true).
- `x || ''` on a missing token becomes `FromEnd`, which yields `""` past the
  start. `data.valuesMap[v] || []` becomes `ValuesOf`. `last.slice(1)` becomes
  `DropFirst`.

Behaviour worth knowing, as the code is written:

- The lone token `"` both starts and ends with a quote. The classifiers
  therefore never call it `VALUE_PARTIAL`, and it falls through to the
  known-value rule. The validator accepts it after an operator as a complete
  value, even in strict mode.
- The validator has no separate balance pass. A stray `)` where a term
  should start fails with the unexpected-token error.
- The value lists are never consulted by the validator.
- After `VAR OP` with no stored values, the suggestion list is empty, with no
  fallback.

## Model

| member | source | states |
|---|---|---|
| Tokenizer.Tokenize | src/app/logic/utils/tokenizer.ts:4-67 | tokenizing never fails and never yields an empty token |
| Tokenizer.QuoteScan | src/app/logic/utils/tokenizer.ts:24-25 | the scan stops at the first `"` at or after its start, or at the end, with no quote skipped |
| Tokenizer.WordScan | src/app/logic/utils/tokenizer.ts:54-55 | the scan stops at the first non-identifier character, and everything it passes is an identifier character |
| Tokenizer.LexFrom | src/app/logic/utils/tokenizer.ts:9-64 | every token is the non-empty piece of the input at its recorded position, at or after the start of the scan |
| Tokenizer.ClassifyToken | src/app/logic/utils/tokenizer.ts:70-85 | first match wins: the empty token is UNKNOWN; `(` and `)` exactly; VAR exactly for a non-paren variable; OP exactly for a non-variable operator; LOGICAL exactly for a logical that is neither; outside the vocabulary, a closed quote of length two or more is VALUE, VALUE_PARTIAL is exactly an opening quote without a closing one, and any other token is VALUE exactly when it is a known value and UNKNOWN otherwise |
| Tokenizer.CountOpenParens | src/app/logic/utils/tokenizer.ts:87-94 | the balance is the number of `(` tokens minus the number of `)` tokens, negative when closers dominate |
| TokenizerProofs.TokenEndIsLexeme | src/app/logic/utils/tokenizer.ts:13-63 | one iteration of the loop takes exactly the token the lexical rules describe, including a lone unrecognised character |
| TokenizerProofs.LexemesFrom | src/app/logic/utils/tokenizer.ts:9-64 | every token of the output follows the lexical rules |
| TokenizerProofs.LexCovers | src/app/logic/utils/tokenizer.ts:9-64 | the tokens are ordered, do not overlap, and only whitespace lies before, between and after them |
| TokenizerProofs.KeepPlainRun | src/app/logic/utils/tokenizer.ts:53-58 | outside quotes, a run without whitespace or quotes is kept whole by the reference scan |
| TokenizerProofs.KeepQuotedRun | src/app/logic/utils/tokenizer.ts:23-34 | inside quotes, the reference scan keeps everything up to the closing quote, or to the end when none closes |
| TokenizerProofs.PlainToken | src/app/logic/utils/tokenizer.ts:38-63 | a token that does not open a quote holds no whitespace and no quote |
| TokenizerProofs.KeepQuotedToken | src/app/logic/utils/tokenizer.ts:23-34 | a quoted token is exactly what the reference scan keeps for it |
| TokenizerProofs.KeepToken | src/app/logic/utils/tokenizer.ts:15-63 | every token is exactly what the reference scan keeps for it |
| TokenizerProofs.ConcatKeepFrom | src/app/logic/utils/tokenizer.ts:9-64 | the tokens of a suffix, concatenated, are what the reference scan keeps of that suffix |
| TokenizerProofs.TokenizeKeeps | src/app/logic/utils/tokenizer.ts:9-64 | concatenating the tokens gives the input with whitespace removed, except whitespace inside quoted tokens, which is kept |
| TokenizerProofs.BlankLexesToNothing | src/app/logic/utils/tokenizer.ts:13 | a blank stretch of input yields no tokens |
| TokenizerProofs.NoTokens | src/app/logic/utils/tokenizer.ts:9-64 | the input has no tokens exactly when it is empty or blank |
| TokenizerProofs.QuotedLexeme | src/app/logic/utils/tokenizer.ts:23-34 | a lexeme that opens a quote closes at the next quote, or runs to the end of the input without a second quote |
| TokenizerProofs.QuotedSpans | src/app/logic/utils/tokenizer.ts:23-34 | a token that opens a quote closes at the next quote, or holds no other quote and is the last token |
| TokenizerProofs.QuotedTokens | src/app/logic/utils/tokenizer.ts:23-34 | the same, for the token texts `tokenize` returns |
| TokenizerProofs.ParenLexeme | src/app/logic/utils/tokenizer.ts:16-20 | a lexeme that contains a paren is that paren alone, or a quoted token |
| TokenizerProofs.ParenTokens | src/app/logic/utils/tokenizer.ts:16-20 | outside quotes, parentheses are single-character tokens of their own |
| TokenizerProofs.GreedyOperators | src/app/logic/utils/tokenizer.ts:38-50 | a single `>`, `<`, `=` or `!` token is never followed by `=`: the two-character operators are taken first |
| TokenizerProofs.WordsAreMaximal | src/app/logic/utils/tokenizer.ts:53-58 | an identifier token holds only identifier characters, and the character after it is not one |
| TokenizerProofs.WordLexeme | src/app/logic/utils/tokenizer.ts:53-58 | a lexeme that starts with an identifier character holds nothing else |
| TokenizerProofs.TwoCharOperatorExample | src/app/logic/utils/tokenizer.ts:38-43 | `a>=b` lexes as `a`, `>=`, `b` |
| TokenizerProofs.LoneQuoteClass | src/app/logic/utils/tokenizer.ts:77-82 | the lone `"` is never VALUE_PARTIAL; outside the vocabulary it is VALUE exactly when `"` is a stored value |
| TokenizerProofs.CountOpenParensAppend | src/app/logic/utils/tokenizer.ts:87-94 | the balance is additive over concatenation of token lists |
| Utils.StripQuotes | src/app/logic/utils/utils.ts:4-9 | the result is never longer; it is the input, or the input without its opening quote, or without both surrounding quotes; a text that does not open a quote is unchanged |
| Utils.StripQuotesRoundTrip | src/app/logic/utils/utils.ts:4-9 | quoting any text, then stripping, gives the text back, including the empty text and texts with quotes inside |
| Utils.StripUnterminated | src/app/logic/utils/utils.ts:7 | an unterminated quoted text loses only its opening quote |
| Utils.StripQuotesUnchanged | src/app/logic/utils/utils.ts:5-8 | the empty text, the lone quote and texts that do not open a quote are unchanged |
| Utils.IsKnownValue | src/app/logic/utils/utils.ts:11-16 | never true for the empty token; for an unquoted token, true exactly when its lower-cased form is a lower-cased stored value; for an unterminated quote such as `"ab`, the same test on the text after the quote; for the lone `"`, true exactly when `"` is a stored value |
| Utils.KnownValueQuoted | src/app/logic/utils/utils.ts:11-16 | a quoted token is a known value exactly when its inner text is |
| Utils.ClassifyToken | src/app/logic/utils/utils.ts:19-30 | the same priority order as the lexer's classifier, rule by rule and in both directions |
| Utils.ClassifiersAgree | src/app/logic/utils/utils.ts:19-30 | the classifier of this file agrees with the lexer's on every token and vocabulary |
| Utils.CountOpenParens | src/app/logic/utils/utils.ts:32-39 | the loop computes `(` count minus `)` count, the same function as the lexer's balance |
| Utils.OpenParensUpTo | src/app/logic/utils/utils.ts:41-48 | the balance of the first `idx + 1` tokens; 0 for a negative `idx`; the whole balance once `idx` reaches the last token |
| Filter.Score | src/app/logic/utils/filter.ts:5-11 | the score is -1, 1, 2 or 3; it is 3 exactly for a prefix match, 2 exactly for a suffix match that is not a prefix match, and positive exactly when the lower-cased item contains the query |
| Filter.Insert | src/app/logic/utils/filter.ts:14 | insertion adds exactly the one element |
| Filter.SortByRank | src/app/logic/utils/filter.ts:14 | the stable sort is a permutation of its input |
| Filter.SmartFilter | src/app/logic/utils/filter.ts:1-16 | an empty query returns the source unchanged; otherwise every result is a source item whose lower-cased form contains the lower-cased query |
| Filter.SortedMembers | src/app/logic/utils/filter.ts:14 | sorting keeps exactly the same elements |
| Filter.InsertAfter | src/app/logic/utils/filter.ts:14 | an element goes after a run ranked strictly higher and before the first element ranked no higher |
| Filter.GroupRank | src/app/logic/utils/filter.ts:14 | every element of a score group has that score |
| Filter.GroupsConsThree | src/app/logic/utils/filter.ts:14 | a prefix match in front of the rest joins the front of the prefix group |
| Filter.GroupsConsTwo | src/app/logic/utils/filter.ts:14 | a suffix match in front of the rest joins the front of the suffix group |
| Filter.GroupsConsOne | src/app/logic/utils/filter.ts:14 | an infix match in front of the rest joins the front of the infix group |
| Filter.InsertIntoGroups | src/app/logic/utils/filter.ts:14 | inserting a matched item into the groups of the rest gives the groups of the longer list |
| Filter.InsertTwo | src/app/logic/utils/filter.ts:14 | a suffix match is inserted after the prefix matches and before the rest |
| Filter.InsertOne | src/app/logic/utils/filter.ts:14 | an infix match is inserted after the prefix and suffix matches |
| Filter.SortIsGroups | src/app/logic/utils/filter.ts:14 | the stable sort by descending score equals the three score groups concatenated, each in source order |
| Filter.MatchesRanked | src/app/logic/utils/filter.ts:5-13 | every kept item scores 1, 2 or 3 |
| Filter.SmartFilterGroups | src/app/logic/utils/filter.ts:1-16 | the result is the prefix matches, then the suffix matches, then the other matches, each group in source order |
| Filter.SmartFilterPermutation | src/app/logic/utils/filter.ts:5-15 | the result is a permutation of the matching source items |
| Filter.SmartFilterComplete | src/app/logic/utils/filter.ts:5-15 | every source item that contains the query appears as often as in the source |
| Filter.GroupsOrdered | src/app/logic/utils/filter.ts:14 | scores never increase along the concatenated groups |
| Filter.SmartFilterOrdered | src/app/logic/utils/filter.ts:14 | scores never increase along the result |
| Filter.SmartFilterPrefixFirst | src/app/logic/utils/filter.ts:5-14 | prefix matches come first, then suffix matches, then the other matches: nothing precedes a prefix match but prefix matches, and nothing precedes a suffix match but prefix or suffix matches |
| Filter.GroupsOfGroups | src/app/logic/utils/filter.ts:14 | each score group of a grouped list is the same group |
| Filter.SmartFilterStable | src/app/logic/utils/filter.ts:14 | within each score, the result keeps the source order |
| Filter.SmartFilterIdempotent | src/app/logic/utils/filter.ts:1-16 | filtering the result again with the same query changes nothing |
| Filter.Dedupe | src/app/logic/utils/filter.ts:18-20 | the result has no duplicates and the same elements as the input |
| Filter.DedupeFirstOccurrenceOrder | src/app/logic/utils/filter.ts:18-20 | the kept elements appear in the order of their first occurrences |
| Filter.DedupeNoDup | src/app/logic/utils/filter.ts:18-20 | a duplicate-free list is left unchanged |
| Filter.DedupeIdempotent | src/app/logic/utils/filter.ts:18-20 | de-duplicating twice is de-duplicating once |
| Filter.DedupeAppend | src/app/logic/utils/filter.ts:18-20 | de-duplicating `a + b` starts with de-duplicated `a`, followed only by elements of `b` not in `a` |
| GrammarHelper.Page | src/app/logic/helper/grammar.helper.ts:23-75 | a page is a prefix of the list, `n` long when it fits, or `|s| + n` long for a negative `n` |
| GrammarHelper.ValuesContaining | src/app/logic/helper/grammar.helper.ts:45-46 | exactly the stored values of the variable whose lower-cased form contains the needle; `MatchingValuesKept` adds their multiplicity and order |
| GrammarHelper.GetSuggestions | src/app/logic/helper/grammar.helper.ts:14-76 | at most `pageSize` suggestions in every branch |
| GrammarHelper.PageMonotone | src/app/logic/helper/grammar.helper.ts:23-75 | for `0 <= n <= m`, the page of size `n` is a prefix of the page of size `m` |
| GrammarHelper.NegativePageNotMonotone | src/app/logic/helper/grammar.helper.ts:23-75 | with a negative page size the pages are not monotone: for a blank query over one variable, the page of size -1 is `["("]` and the page of size 0 is empty |
| GrammarHelper.DefaultPage | src/app/logic/helper/grammar.helper.ts:14 | without a page size, at most ten suggestions, the first of the candidates |
| GrammarHelper.BlankQuery | src/app/logic/helper/grammar.helper.ts:23 | an empty or blank query is answered with `(` and the variables |
| GrammarHelper.TermExpected | src/app/logic/helper/grammar.helper.ts:26-75 | after `(`, after a logical, after an operator that does not follow a variable, and after a partly typed quoted value that does not follow an operator, `(` and the variables are offered |
| GrammarHelper.AfterVariable | src/app/logic/helper/grammar.helper.ts:29-33 | after a variable: each operator and logical once, operators first, then logicals, and `)` last exactly when a parenthesis is open |
| GrammarHelper.AfterOperator | src/app/logic/helper/grammar.helper.ts:37-41 | after `VAR OP`: exactly the variable's stored values in stored order, and nothing when none are stored |
| GrammarHelper.AfterPartialValue | src/app/logic/helper/grammar.helper.ts:44-48 | after `OP "partial`: exactly the values of the token three back whose lower-cased form contains the typed text, each as often as stored, in stored order |
| GrammarHelper.MatchingValuesKept | src/app/logic/helper/grammar.helper.ts:45-46 | filtering the stored values keeps exactly the matching ones, each as often as stored, in stored order |
| GrammarHelper.MatchingRow | src/app/logic/helper/grammar.helper.ts:44-48 | a partly typed quoted value after an operator selects the row that filters the values of the token three back |
| GrammarHelper.AfterOperand | src/app/logic/helper/grammar.helper.ts:51-62 | after a value or `)`: the logicals, then `)` exactly when a parenthesis is open |
| GrammarHelper.AfterUnknown | src/app/logic/helper/grammar.helper.ts:70-72 | after an unknown token: exactly the variables containing it, ignoring case |
| GrammarHelper.UnknownRow | src/app/logic/helper/grammar.helper.ts:70-72 | an unknown last token selects the ranked variables |
| GrammarHelper.RankedVariables | src/app/logic/helper/grammar.helper.ts:71 | for a non-empty lower-case query, the ranked variables are exactly the variables that contain it |
| GrammarHelper.StoredValuesInGrammar | src/app/logic/helper/grammar.helper.ts:39-46 | values drawn from a variable's stored list are words of the vocabulary |
| GrammarHelper.OfferInGrammar | src/app/logic/helper/grammar.helper.ts:23-75 | every row of the table offers only parens, variables, operators, logicals and stored values |
| GrammarHelper.CandidatesInGrammar | src/app/logic/helper/grammar.helper.ts:15-75 | the candidates never contain a word outside the vocabulary |
| GrammarHelper.SuggestionsInGrammar | src/app/logic/helper/grammar.helper.ts:14-76 | no suggestion is invented |
| Validator.Message | src/app/logic/validator/validator.ts:56-122 | every error has a non-empty message, and the two token errors quote the offending token |
| Validator.TokenMessage | src/app/logic/validator/validator.ts:100-122 | the interpolated message holds the token between single quotes |
| Validator.ParseTerm | src/app/logic/validator/validator.ts:54-101 | the cursor never moves back nor past the end; success consumes at least the `(` or the variable it starts with; a term never reports a trailing token |
| Validator.ParseExpr | src/app/logic/validator/validator.ts:103-116 | success consumes at least one token; the cursor stays within the input |
| Validator.ParseMore | src/app/logic/validator/validator.ts:109-114 | the loop stops only at the end of the input or before a word that is not a logical |
| Validator.ValidateTokens | src/app/logic/validator/validator.ts:20-125 | a trailing-token error names a token of the input that is not a logical |
| Validator.ValidateFormula | src/app/logic/validator/validator.ts:19-126 | the result is the empty string exactly when the tokens validate |
| ValidatorProofs.TermModes | src/app/logic/validator/validator.ts:54-101 | a term that succeeds in strict mode succeeds identically in tolerant mode |
| ValidatorProofs.ExprModes | src/app/logic/validator/validator.ts:103-116 | the same for an expression |
| ValidatorProofs.MoreModes | src/app/logic/validator/validator.ts:109-114 | the same for the connective loop |
| ValidatorProofs.ModeMonotone | src/app/logic/validator/validator.ts:76-86 | what strict mode accepts, tolerant mode accepts |
| ValidatorProofs.TermValuesIrrelevant | src/app/logic/validator/validator.ts:42-51 | a term's parse does not depend on the stored values |
| ValidatorProofs.ExprValuesIrrelevant | src/app/logic/validator/validator.ts:42-51 | the same for an expression |
| ValidatorProofs.MoreValuesIrrelevant | src/app/logic/validator/validator.ts:42-51 | the same for the connective loop |
| ValidatorProofs.ValuesIrrelevant | src/app/logic/validator/validator.ts:42-51 | the verdict never depends on the stored values |
| ValidatorProofs.BlankIsValid | src/app/logic/validator/validator.ts:20-21 | empty or blank input is valid in both modes |
| ValidatorProofs.BareVariable | src/app/logic/validator/validator.ts:68-96 | a bare variable is valid in both modes |
| ValidatorProofs.OperatorAtEnd | src/app/logic/validator/validator.ts:76-80 | `VAR OP` is valid exactly in tolerant mode, else "operator must be followed by a value" |
| ValidatorProofs.DefaultToleratesOperatorAtEnd | src/app/logic/validator/validator.ts:19 | by default the validator is tolerant: `VAR OP` at the end is valid |
| ValidatorProofs.UnterminatedAtEnd | src/app/logic/validator/validator.ts:82-86 | `VAR OP "partial` is valid exactly in tolerant mode, else "unterminated quoted value" |
| ValidatorProofs.ValueAfterOperator | src/app/logic/validator/validator.ts:42-92 | after an operator, a complete token is rejected exactly when it is unquoted and a variable, operator, logical or paren |
| ValidatorProofs.LoneQuoteIsValue | src/app/logic/validator/validator.ts:82-92 | the lone `"` after an operator is a complete value, even in strict mode |
| ValidatorProofs.MissingParen | src/app/logic/validator/validator.ts:59-64 | `( VAR` without `)` fails with the missing-`)` error in both modes |
| ValidatorProofs.MissingParenGeneral | src/app/logic/validator/validator.ts:59-64 | `(` followed by any strict-well-formed expression and no `)` fails with the missing-`)` error in both modes, over a separated vocabulary |
| ValidatorProofs.StrayCloser | src/app/logic/validator/validator.ts:99-100 | when `)` is not a variable, `)(` and `()` fail with the unexpected-token error naming `)` in both modes |
| ValidatorProofs.TrailingLogical | src/app/logic/validator/validator.ts:56-113 | when the logical is not also an operator, `VAR LOGICAL` fails with the unexpected-end error in both modes |
| ValidatorProofs.ComparisonThenBare | src/app/logic/validator/validator.ts:68-116 | `VAR OP "value" LOGICAL VAR` is valid in strict mode |
| ValidatorProofs.AgeAndCityExample | src/app/logic/validator/validator.ts:68-116 | `age > "30" AND city` is valid in strict mode |
| ValidatorGrammar.TermSound | src/app/logic/validator/validator.ts:54-101 | the tokens a successful term consumes are the yield of a well-formed term of that mode |
| ValidatorGrammar.VarTermSound | src/app/logic/validator/validator.ts:68-96 | the same for terms that start with a variable |
| ValidatorGrammar.ExprSound | src/app/logic/validator/validator.ts:103-116 | the tokens a successful expression consumes are a well-formed expression's yield |
| ValidatorGrammar.MoreSound | src/app/logic/validator/validator.ts:109-114 | the tokens the connective loop consumes are a well-formed tail's yield |
| ValidatorGrammar.Soundness | src/app/logic/validator/validator.ts:19-126 | every non-empty accepted token list, in either mode, is the yield of a well-formed expression |
| ValidatorGrammar.CompareComplete | src/app/logic/validator/validator.ts:68-92 | in strict mode `VAR OP VALUE` is one term of three tokens |
| ValidatorGrammar.BareComplete | src/app/logic/validator/validator.ts:68-96 | a variable not followed by an operator is one term of one token |
| ValidatorGrammar.GroupComplete | src/app/logic/validator/validator.ts:59-64 | `(`, a successful expression and `)` make one term |
| ValidatorGrammar.TermComplete | src/app/logic/validator/validator.ts:54-101 | in strict mode the yield of a well-formed term parses as exactly that term |
| ValidatorGrammar.MoreStep | src/app/logic/validator/validator.ts:109-114 | one round of the connective loop |
| ValidatorGrammar.MoreStop | src/app/logic/validator/validator.ts:109 | the loop stops before a word that is not a logical |
| ValidatorGrammar.ExprStep | src/app/logic/validator/validator.ts:103-107 | an expression is its first term, then the loop |
| ValidatorGrammar.ExprComplete | src/app/logic/validator/validator.ts:103-116 | in strict mode the yield of a well-formed expression parses as exactly that expression |
| ValidatorGrammar.TailComplete | src/app/logic/validator/validator.ts:109-114 | in strict mode the yield of a well-formed tail is consumed by the loop |
| ValidatorGrammar.Completeness | src/app/logic/validator/validator.ts:19-126 | in strict mode, over a separated vocabulary, every well-formed expression's yield is accepted |
| ValidatorGrammar.StrictCharacterisation | src/app/logic/validator/validator.ts:19-126 | in strict mode, over a separated vocabulary, the validator accepts exactly the empty list and the yields of well-formed expressions |
| ValidatorGrammar.TrailingAfterValidPrefix | src/app/logic/validator/validator.ts:118-125 | in strict mode, over a separated vocabulary, a trailing-token error names the first token after a valid proper prefix |

## Left out

- The Angular services and components are not part of this model. They fetch
  the vocabulary over HTTP, page it, cache it and wire the UI. The model
  takes their output as an immutable `GrammarData` value.
- `console.log` and `console.error` output is not modelled.
- Lower-casing covers the ASCII letters only. `String.prototype.toLowerCase`
  applies full Unicode case mapping, including mappings that change the
  length.
- Strings are sequences of Unicode scalar values, while JavaScript indexes
  UTF-16 code units. A character outside the Basic Multilingual Plane is two
  code units there. Outside quotes, the lexer emits each unit as a token of
  its own, where the model emits one token for the character.
- `input || ''` and `query || ''` for a `null` or `undefined` argument:
  Dafny strings are never null.
- Keys inherited by `valuesMap` as a plain JavaScript object (such as
  `constructor`) are not modelled. The map holds only its own entries.
- A non-integer or `NaN` `pageSize` is not modelled. `pageSize` is an integer.
- GrammarHelper.PageMonotone: holds only for `0 <= n`. A negative page size
  counts from the end, so pages are then not monotone, as
  `GrammarHelper.NegativePageNotMonotone` shows.
- ValidatorGrammar.Completeness: proved for strict mode only, and only for
  a vocabulary in which no logical is an operator and `)` is neither. In
  tolerant mode, or when words are shared, the yield of a well-formed tree
  can be rejected. For example, the tolerant tree `VAR OP`, then a logical and a
  term, is rejected with the operator-placement error, because the parser
  takes the logical for the missing value.
- GrammarHelper.AfterUnknown: states membership. The ranking is stated for
  `smartFilter` itself in `Filter.SmartFilterOrdered` and
  `Filter.SmartFilterStable`.

=== FILE: filter.dfy ===
/** The ranking filter and the de-duplication of `src/app/logic/utils/filter.ts`. */
module Filter {
  import opened Text
  import opened Seqs

  // ---------------------------------------------------------------------
  // smartFilter
  // ---------------------------------------------------------------------

  /** The rank of `item` against the lower-cased query `q`: 3 for a prefix
      match, 2 for a suffix match, 1 for any other substring match and -1
      when the query does not occur. */
  function Score(q: string, item: string): (sc: int)
    ensures sc == -1 || sc == 1 || sc == 2 || sc == 3
    ensures sc > 0 <==> Contains(Lower(item), q)
    ensures sc == 3 <==> StartsWith(Lower(item), q)
    ensures sc == 2 <==> !StartsWith(Lower(item), q) && EndsWith(Lower(item), q)
  {
    var lower := Lower(item);
    if StartsWith(lower, q) then (StartsWithContains(lower, q); 3)
    else if EndsWith(lower, q) then (EndsWithContains(lower, q); 2)
    else if Contains(lower, q) then 1
    else -1
  }

  /** The items that match the query at all. */
  function Matches(q: string): string -> bool {
    x => Score(q, x) > 0
  }

  /** The rank of every item against `q`, as a function. */
  function Rank(q: string): string -> int {
    x => Score(q, x)
  }

  /** The items whose rank is `sc`. */
  function RankIs(rank: string -> int, sc: int): string -> bool {
    x => rank(x) == sc
  }

  /** Stable insertion: `x`, which precedes every element of `ys` in the
      source, goes after the elements ranked strictly higher and before
      the rest. */
  function Insert(rank: string -> int, x: string, ys: seq<string>): (r: seq<string>)
    ensures multiset(r) == multiset{x} + multiset(ys)
  {
    if |ys| == 0 || rank(ys[0]) <= rank(x) then [x] + ys
    else
      assert ys == [ys[0]] + ys[1..];
      [ys[0]] + Insert(rank, x, ys[1..])
  }

  /** `Array.prototype.sort` with the comparator `b.score - a.score`: a
      stable sort by descending rank (ECMAScript 2019 requires stability). */
  function SortByRank(rank: string -> int, xs: seq<string>): (r: seq<string>)
    ensures multiset(r) == multiset(xs)
  {
    if |xs| == 0 then []
    else
      assert xs == [xs[0]] + xs[1..];
      Insert(rank, xs[0], SortByRank(rank, xs[1..]))
  }

  /** `smartFilter`: the items whose lower-cased form contains the
      lower-cased query, prefix matches first, then suffix matches, then the
      others, each group in source order. The empty query keeps everything.
      The `{item, score}` records of the source are recomputable from the
      item, so the model sorts the items by their rank directly. */
  function SmartFilter(query: string, source: seq<string>): (r: seq<string>)
    ensures Lower(query) == "" ==> r == source
    ensures Lower(query) != "" ==> forall x :: x in r ==> x in source && Contains(Lower(x), Lower(query))
  {
    var q := Lower(query);
    if q == "" then source
    else
      var kept := Filter(source, Matches(q));
      FilterMembers(source, Matches(q));
      SortedMembers(Rank(q), kept);
      SortByRank(Rank(q), kept)
  }

  /** Sorting keeps exactly the same elements. */
  lemma SortedMembers(rank: string -> int, xs: seq<string>)
    ensures forall x :: x in SortByRank(rank, xs) <==> x in xs
  {
    var r := SortByRank(rank, xs);
    forall x
      ensures x in r <==> x in xs
    {
      assert x in r <==> x in multiset(r);
      assert x in xs <==> x in multiset(xs);
    }
  }

  /** Reference definition of the ranked result: the three rank groups, in
      source order, one after the other. */
  function Groups(rank: string -> int, s: seq<string>): seq<string> {
    Filter(s, RankIs(rank, 3)) + Filter(s, RankIs(rank, 2)) + Filter(s, RankIs(rank, 1))
  }

  /** Inserting below a run of strictly higher-ranked elements. */
  lemma {:induction false} InsertAfter(rank: string -> int, x: string, a: seq<string>, b: seq<string>)
    requires forall k :: 0 <= k < |a| ==> rank(a[k]) > rank(x)
    requires |b| == 0 || rank(b[0]) <= rank(x)
    ensures Insert(rank, x, a + b) == a + [x] + b
  {
    if |a| == 0 {
      assert a + b == b;
    } else {
      var ys := a[1..] + b;
      assert a + b == [a[0]] + ys;
      InsertPast(rank, x, a[0], ys);
      InsertAfter(rank, x, a[1..], b);
      ReattachHead(a, x, b);
    }
  }

  /** Putting the head back in front of the rest of `a`, with `x` and `b`
      after it, gives `a`, then `x`, then `b`. */
  lemma ReattachHead(a: seq<string>, x: string, b: seq<string>)
    requires |a| > 0
    ensures [a[0]] + (a[1..] + [x] + b) == a + [x] + b
  {
    assert a == [a[0]] + a[1..];
  }

  /** An element ranked above the inserted one stays in front of it. */
  lemma InsertPast(rank: string -> int, x: string, y: string, ys: seq<string>)
    requires rank(y) > rank(x)
    ensures Insert(rank, x, [y] + ys) == [y] + Insert(rank, x, ys)
  {
    assert ([y] + ys)[0] == y && ([y] + ys)[1..] == ys;
  }

  /** Every element of a rank group has that rank. */
  lemma {:induction false} GroupRank(rank: string -> int, s: seq<string>, sc: int)
    ensures forall k :: 0 <= k < |Filter(s, RankIs(rank, sc))| ==> rank(Filter(s, RankIs(rank, sc))[k]) == sc
  {
    FilterMembers(s, RankIs(rank, sc));
    var g := Filter(s, RankIs(rank, sc));
    forall k | 0 <= k < |g|
      ensures rank(g[k]) == sc
    {
      assert g[k] in g;
    }
  }

  /** The groups of `[x] + rest` for `x` ranked 3. */
  lemma GroupsConsThree(rank: string -> int, x: string, rest: seq<string>)
    requires rank(x) == 3
    ensures Groups(rank, [x] + rest) == [x] + Groups(rank, rest)
  {
    FilterCons(x, rest, RankIs(rank, 3));
    FilterCons(x, rest, RankIs(rank, 2));
    FilterCons(x, rest, RankIs(rank, 1));
  }

  /** The groups of `[x] + rest` for `x` ranked 2. */
  lemma GroupsConsTwo(rank: string -> int, x: string, rest: seq<string>)
    requires rank(x) == 2
    ensures var g3, g2, g1 := Filter(rest, RankIs(rank, 3)), Filter(rest, RankIs(rank, 2)), Filter(rest, RankIs(rank, 1));
      Groups(rank, [x] + rest) == g3 + ([x] + (g2 + g1))
  {
    FilterCons(x, rest, RankIs(rank, 3));
    FilterCons(x, rest, RankIs(rank, 2));
    FilterCons(x, rest, RankIs(rank, 1));
    assert Filter([x] + rest, RankIs(rank, 3)) == Filter(rest, RankIs(rank, 3));
    assert Filter([x] + rest, RankIs(rank, 2)) == [x] + Filter(rest, RankIs(rank, 2));
    assert Filter([x] + rest, RankIs(rank, 1)) == Filter(rest, RankIs(rank, 1));
  }

  /** The groups of `[x] + rest` for `x` ranked 1. */
  lemma GroupsConsOne(rank: string -> int, x: string, rest: seq<string>)
    requires rank(x) == 1
    ensures var g3, g2, g1 := Filter(rest, RankIs(rank, 3)), Filter(rest, RankIs(rank, 2)), Filter(rest, RankIs(rank, 1));
      Groups(rank, [x] + rest) == (g3 + g2) + ([x] + g1)
  {
    FilterCons(x, rest, RankIs(rank, 3));
    FilterCons(x, rest, RankIs(rank, 2));
    FilterCons(x, rest, RankIs(rank, 1));
    assert Filter([x] + rest, RankIs(rank, 3)) == Filter(rest, RankIs(rank, 3));
    assert Filter([x] + rest, RankIs(rank, 2)) == Filter(rest, RankIs(rank, 2));
    assert Filter([x] + rest, RankIs(rank, 1)) == [x] + Filter(rest, RankIs(rank, 1));
  }

  /** Inserting an item ranked 1 to 3 in front of the groups of `rest`
      gives the groups of the longer sequence. */
  lemma InsertIntoGroups(rank: string -> int, x: string, rest: seq<string>)
    requires 1 <= rank(x) <= 3
    ensures Insert(rank, x, Groups(rank, rest)) == Groups(rank, [x] + rest)
  {
    var g3, g2, g1 := Filter(rest, RankIs(rank, 3)), Filter(rest, RankIs(rank, 2)), Filter(rest, RankIs(rank, 1));
    GroupRank(rank, rest, 3);
    GroupRank(rank, rest, 2);
    GroupRank(rank, rest, 1);
    if rank(x) == 3 {
      GroupsConsThree(rank, x, rest);
      InsertThree(rank, x, g3, g2, g1);
    } else if rank(x) == 2 {
      GroupsConsTwo(rank, x, rest);
      InsertTwo(rank, x, g3, g2, g1);
    } else {
      GroupsConsOne(rank, x, rest);
      InsertOne(rank, x, g3, g2, g1);
    }
  }

  /** An item ranked 3 goes in front of items ranked at most 3. */
  lemma InsertThree(rank: string -> int, x: string, g3: seq<string>, g2: seq<string>, g1: seq<string>)
    requires rank(x) == 3
    requires forall k :: 0 <= k < |g3| ==> rank(g3[k]) == 3
    requires forall k :: 0 <= k < |g2| ==> rank(g2[k]) == 2
    requires forall k :: 0 <= k < |g1| ==> rank(g1[k]) == 1
    ensures Insert(rank, x, g3 + g2 + g1) == [x] + (g3 + g2 + g1)
  {
    HeadRankAtMostThree(rank, g3, g2, g1);
    InsertAfter(rank, x, [], g3 + g2 + g1);
    PrependNothing(x, g3 + g2 + g1);
  }

  /** The first element of the three groups, if any, ranks at most 3. */
  lemma HeadRankAtMostThree(rank: string -> int, g3: seq<string>, g2: seq<string>, g1: seq<string>)
    requires forall k :: 0 <= k < |g3| ==> rank(g3[k]) == 3
    requires forall k :: 0 <= k < |g2| ==> rank(g2[k]) == 2
    requires forall k :: 0 <= k < |g1| ==> rank(g1[k]) == 1
    ensures |g3 + g2 + g1| == 0 || rank((g3 + g2 + g1)[0]) <= 3
  {
    if |g3| > 0 {
      assert (g3 + g2 + g1)[0] == g3[0];
    } else {
      HeadRankAtMostTwo(rank, g2, g1);
      assert g3 + g2 + g1 == g2 + g1;
    }
  }

  /** An empty run before the inserted element changes nothing. */
  lemma PrependNothing(x: string, s: seq<string>)
    ensures [] + s == s && [] + [x] + s == [x] + s
  {
  }

  lemma InsertTwo(rank: string -> int, x: string, g3: seq<string>, g2: seq<string>, g1: seq<string>)
    requires rank(x) == 2
    requires forall k :: 0 <= k < |g3| ==> rank(g3[k]) == 3
    requires forall k :: 0 <= k < |g2| ==> rank(g2[k]) == 2
    requires forall k :: 0 <= k < |g1| ==> rank(g1[k]) == 1
    ensures Insert(rank, x, g3 + g2 + g1) == g3 + ([x] + (g2 + g1))
  {
    HeadRankAtMostTwo(rank, g2, g1);
    InsertAfter(rank, x, g3, g2 + g1);
    Regroup(g3, g2, g1, x);
  }

  /** Re-bracketing the three groups around an inserted element. */
  lemma Regroup(a: seq<string>, b: seq<string>, c: seq<string>, x: string)
    ensures a + b + c == a + (b + c)
    ensures a + [x] + (b + c) == a + ([x] + (b + c))
  {
  }

  /** The first element of the rank-2 group followed by the rank-1 group,
      if any, ranks at most 2. */
  lemma HeadRankAtMostTwo(rank: string -> int, g2: seq<string>, g1: seq<string>)
    requires forall k :: 0 <= k < |g2| ==> rank(g2[k]) == 2
    requires forall k :: 0 <= k < |g1| ==> rank(g1[k]) == 1
    ensures |g2 + g1| == 0 || rank((g2 + g1)[0]) <= 2
  {
    if |g2| > 0 {
      assert (g2 + g1)[0] == g2[0];
    } else if |g1| > 0 {
      assert (g2 + g1)[0] == g1[0];
    }
  }

  lemma InsertOne(rank: string -> int, x: string, g3: seq<string>, g2: seq<string>, g1: seq<string>)
    requires rank(x) == 1
    requires forall k :: 0 <= k < |g3| ==> rank(g3[k]) == 3
    requires forall k :: 0 <= k < |g2| ==> rank(g2[k]) == 2
    requires forall k :: 0 <= k < |g1| ==> rank(g1[k]) == 1
    ensures Insert(rank, x, g3 + g2 + g1) == (g3 + g2) + ([x] + g1)
  {
    forall k | 0 <= k < |g3 + g2|
      ensures rank((g3 + g2)[k]) > rank(x)
    {
      if k < |g3| {
        assert (g3 + g2)[k] == g3[k];
      } else {
        assert (g3 + g2)[k] == g2[k - |g3|];
      }
    }
    InsertAfter(rank, x, g3 + g2, g1);
  }

  /** The stable sort of items ranked 1 to 3 is the concatenation of the
      rank groups. */
  lemma {:induction false} SortIsGroups(rank: string -> int, xs: seq<string>)
    requires forall k :: 0 <= k < |xs| ==> 1 <= rank(xs[k]) <= 3
    ensures SortByRank(rank, xs) == Groups(rank, xs)
  {
    if |xs| > 0 {
      var x, rest := xs[0], xs[1..];
      assert xs == [x] + rest;
      assert forall k :: 0 <= k < |rest| ==> rest[k] == xs[k + 1];
      SortIsGroups(rank, rest);
      InsertIntoGroups(rank, x, rest);
    }
  }

  /** Filtering by `r` after filtering by a weaker `p` is filtering by `r`. */
  lemma {:induction false} FilterOfFilter(s: seq<string>, p: string -> bool, r: string -> bool)
    requires forall x :: r(x) ==> p(x)
    ensures Filter(Filter(s, p), r) == Filter(s, r)
  {
    if |s| > 0 {
      FilterOfFilter(s[1..], p, r);
      if p(s[0]) {
        assert Filter(s, p) == [s[0]] + Filter(s[1..], p);
        FilterCons(s[0], Filter(s[1..], p), r);
      } else {
        assert Filter(s, p) == Filter(s[1..], p);
        assert Filter(s, r) == Filter(s[1..], r);
      }
    }
  }

  /** The matching items all have a rank between 1 and 3. */
  lemma MatchesRanked(q: string, source: seq<string>, kept: seq<string>)
    requires kept == Filter(source, Matches(q))
    ensures forall k :: 0 <= k < |kept| ==> 1 <= Rank(q)(kept[k]) <= 3
  {
    FilterMembers(source, Matches(q));
    forall k | 0 <= k < |kept|
      ensures 1 <= Rank(q)(kept[k]) <= 3
    {
      assert kept[k] in kept;
    }
  }

  /** `smartFilter` is the rank groups of the source, in that order. */
  lemma SmartFilterGroups(query: string, source: seq<string>)
    requires Lower(query) != ""
    ensures SmartFilter(query, source) == Groups(Rank(Lower(query)), source)
  {
    var q := Lower(query);
    var rank := Rank(q);
    var kept := Filter(source, Matches(q));
    MatchesRanked(q, source, kept);
    SortIsGroups(rank, kept);
    FilterOfFilter(source, Matches(q), RankIs(rank, 3));
    FilterOfFilter(source, Matches(q), RankIs(rank, 2));
    FilterOfFilter(source, Matches(q), RankIs(rank, 1));
  }

  /** Completeness with multiplicities: the result is a permutation of the
      matching items of the source. */
  lemma SmartFilterPermutation(query: string, source: seq<string>)
    requires Lower(query) != ""
    ensures multiset(SmartFilter(query, source)) == multiset(Filter(source, Matches(Lower(query))))
  {
  }

  /** Every source item containing the query appears in the result, as
      often as in the source. */
  lemma SmartFilterComplete(query: string, source: seq<string>)
    ensures forall x :: x in source && Contains(Lower(x), Lower(query)) ==>
      multiset(SmartFilter(query, source))[x] == multiset(source)[x]
  {
    if Lower(query) != "" {
      SmartFilterPermutation(query, source);
      FilterCounts(source, Matches(Lower(query)));
    }
  }

  /** Ranks never increase along the concatenated groups. */
  lemma GroupsOrdered(rank: string -> int, s: seq<string>)
    ensures var r := Groups(rank, s);
      forall i, j :: 0 <= i < j < |r| ==> rank(r[i]) >= rank(r[j])
  {
    var g3, g2, g1 := Filter(s, RankIs(rank, 3)), Filter(s, RankIs(rank, 2)), Filter(s, RankIs(rank, 1));
    GroupRank(rank, s, 3);
    GroupRank(rank, s, 2);
    GroupRank(rank, s, 1);
    var r := g3 + g2 + g1;
    forall i, j | 0 <= i < j < |r|
      ensures rank(r[i]) >= rank(r[j])
    {
      if i < |g3| {
        assert r[i] == g3[i];
        if j < |g3| {
          assert r[j] == g3[j];
        } else if j < |g3| + |g2| {
          assert r[j] == g2[j - |g3|];
        } else {
          assert r[j] == g1[j - |g3| - |g2|];
        }
      } else if i < |g3| + |g2| {
        assert r[i] == g2[i - |g3|];
        if j < |g3| + |g2| {
          assert r[j] == g2[j - |g3|];
        } else {
          assert r[j] == g1[j - |g3| - |g2|];
        }
      } else {
        assert r[i] == g1[i - |g3| - |g2|];
        assert r[j] == g1[j - |g3| - |g2|];
      }
    }
  }

  /** Ordering: ranks never increase along the result, so prefix matches
      come first, then suffix matches, then the other substring matches. */
  lemma SmartFilterOrdered(query: string, source: seq<string>)
    requires Lower(query) != ""
    ensures var r := SmartFilter(query, source);
      forall i, j :: 0 <= i < j < |r| ==> Score(Lower(query), r[i]) >= Score(Lower(query), r[j])
  {
    SmartFilterGroups(query, source);
    GroupsOrdered(Rank(Lower(query)), source);
  }

  /** The order in the source's own terms: no item comes before a prefix
      match unless it is a prefix match too, and none comes before a suffix
      match unless it is a prefix or a suffix match. */
  lemma SmartFilterPrefixFirst(query: string, source: seq<string>)
    requires Lower(query) != ""
    ensures var r, q := SmartFilter(query, source), Lower(query);
      forall i, j :: 0 <= i < j < |r| ==>
        && (StartsWith(Lower(r[j]), q) ==> StartsWith(Lower(r[i]), q))
        && (EndsWith(Lower(r[j]), q) ==> StartsWith(Lower(r[i]), q) || EndsWith(Lower(r[i]), q))
  {
    var r, q := SmartFilter(query, source), Lower(query);
    SmartFilterOrdered(query, source);
    forall i, j | 0 <= i < j < |r|
      ensures StartsWith(Lower(r[j]), q) ==> StartsWith(Lower(r[i]), q)
      ensures EndsWith(Lower(r[j]), q) ==> StartsWith(Lower(r[i]), q) || EndsWith(Lower(r[i]), q)
    {
      var si, sj := Score(q, r[i]), Score(q, r[j]);
      assert si >= sj;
    }
  }

  /** Each rank group of a sequence already made of groups is the same
      group. */
  lemma GroupsOfGroups(rank: string -> int, s: seq<string>, sc: int)
    requires sc == 1 || sc == 2 || sc == 3
    ensures Filter(Groups(rank, s), RankIs(rank, sc)) == Filter(s, RankIs(rank, sc))
  {
    var g3, g2, g1 := Filter(s, RankIs(rank, 3)), Filter(s, RankIs(rank, 2)), Filter(s, RankIs(rank, 1));
    var p := RankIs(rank, sc);
    FilterConcat(g3 + g2, g1, p);
    FilterConcat(g3, g2, p);
    FilterMembers(s, RankIs(rank, 3));
    FilterMembers(s, RankIs(rank, 2));
    FilterMembers(s, RankIs(rank, 1));
    if sc == 3 {
      FilterNone(g2, p);
      FilterNone(g1, p);
      FilterAll(g3, p);
    } else if sc == 2 {
      FilterNone(g3, p);
      FilterNone(g1, p);
      FilterAll(g2, p);
    } else {
      FilterNone(g3, p);
      FilterNone(g2, p);
      FilterAll(g1, p);
    }
  }

  /** Stability: within each rank, the result keeps the source order. */
  lemma SmartFilterStable(query: string, source: seq<string>, sc: int)
    requires Lower(query) != ""
    requires sc == 1 || sc == 2 || sc == 3
    ensures var rank := Rank(Lower(query));
      Filter(SmartFilter(query, source), RankIs(rank, sc)) == Filter(source, RankIs(rank, sc))
  {
    SmartFilterGroups(query, source);
    GroupsOfGroups(Rank(Lower(query)), source, sc);
  }

  /** `smartFilter` is idempotent. */
  lemma SmartFilterIdempotent(query: string, source: seq<string>)
    ensures SmartFilter(query, SmartFilter(query, source)) == SmartFilter(query, source)
  {
    var q := Lower(query);
    if q != "" {
      var rank := Rank(q);
      var r := SmartFilter(query, source);
      SmartFilterGroups(query, source);
      SmartFilterGroups(query, r);
      GroupsOfGroups(rank, source, 3);
      GroupsOfGroups(rank, source, 2);
      GroupsOfGroups(rank, source, 1);
    }
  }

  // ---------------------------------------------------------------------
  // dedupe
  // ---------------------------------------------------------------------

  /** `dedupe` (`Array.from(new Set(arr))`): each distinct element once,
      in the order of its first occurrence. */
  function Dedupe(arr: seq<string>): (r: seq<string>)
    ensures NoDup(r)
    ensures forall x :: x in r <==> x in arr
  {
    if |arr| == 0 then []
    else
      var n := |arr| - 1;
      var p := Dedupe(arr[..n]);
      assert forall x :: x in arr <==> x in arr[..n] || x == arr[n] by {
        assert arr == arr[..n] + [arr[n]];
      }
      if arr[n] in p then p else p + [arr[n]]
  }

  /** A first occurrence in a prefix is the first occurrence in the whole. */
  lemma {:induction false} FirstIndexPrefix(s: seq<string>, n: nat, x: string)
    requires n <= |s| && x in s[..n]
    ensures FirstIndex(s[..n], x) == FirstIndex(s, x)
  {
    var k := FirstIndex(s[..n], x);
    var k' := FirstIndex(s, x);
    assert s[..n][k] == s[k];
    assert k' <= k;
    assert s[..n][k'] == x;
  }

  /** The elements of `r` appear in the order of their first occurrences in `arr`. */
  ghost predicate FirstOccurrenceOrder(arr: seq<string>, r: seq<string>) {
    forall i, j :: 0 <= i < j < |r| && r[i] in arr && r[j] in arr ==> FirstIndex(arr, r[i]) < FirstIndex(arr, r[j])
  }

  /** The kept elements appear in the order of their first occurrences. */
  lemma {:induction false} DedupeFirstOccurrenceOrder(arr: seq<string>)
    ensures FirstOccurrenceOrder(arr, Dedupe(arr))
  {
    if |arr| > 0 {
      var n := |arr| - 1;
      var p := Dedupe(arr[..n]);
      DedupeFirstOccurrenceOrder(arr[..n]);
      var r := Dedupe(arr);
      assert FirstOccurrenceOrder(arr[..n], p);
      assert r == p || (r == p + [arr[n]] && arr[n] !in arr[..n]);
      forall i, j | 0 <= i < j < |r| && r[i] in arr && r[j] in arr
        ensures FirstIndex(arr, r[i]) < FirstIndex(arr, r[j])
      {
        assert r[i] == p[i] && p[i] in p;
        FirstIndexPrefix(arr, n, r[i]);
        if j < |p| {
          assert r[j] == p[j] && p[j] in p;
          FirstIndexPrefix(arr, n, r[j]);
          assert FirstIndex(arr[..n], p[i]) < FirstIndex(arr[..n], p[j]);
        } else {
          assert r[j] == arr[n] && arr[n] !in arr[..n];
          assert forall m :: 0 <= m < n ==> arr[m] == arr[..n][m];
          assert FirstIndex(arr, arr[n]) == n;
        }
      }
    }
  }

  /** `dedupe` leaves a duplicate-free list unchanged. */
  lemma {:induction false} DedupeNoDup(arr: seq<string>)
    requires NoDup(arr)
    ensures Dedupe(arr) == arr
  {
    if |arr| > 0 {
      var n := |arr| - 1;
      assert NoDup(arr[..n]);
      DedupeNoDup(arr[..n]);
      assert arr[n] !in arr[..n];
      assert arr == arr[..n] + [arr[n]];
    }
  }

  /** `dedupe` is idempotent. */
  lemma DedupeIdempotent(arr: seq<string>)
    ensures Dedupe(Dedupe(arr)) == Dedupe(arr)
  {
    DedupeNoDup(Dedupe(arr));
  }

  /** Deduplicating `a + b` lists the distinct elements of `a` first, then
      the elements of `b` that `a` lacks. */
  lemma {:induction false} DedupeAppend(a: seq<string>, b: seq<string>)
    ensures var d, da := Dedupe(a + b), Dedupe(a);
      && IsPrefix(da, d)
      && forall k :: |da| <= k < |d| ==> d[k] in b && d[k] !in a
  {
    var d, da := Dedupe(a + b), Dedupe(a);
    if |b| == 0 {
      assert a + b == a;
    } else {
      var n := |b| - 1;
      var ab := a + b;
      assert ab[..|ab| - 1] == a + b[..n];
      assert ab[|ab| - 1] == b[n];
      DedupeAppend(a, b[..n]);
      var p := Dedupe(a + b[..n]);
      assert d == p || d == p + [b[n]];
      forall k | |da| <= k < |d|
        ensures d[k] in b && d[k] !in a
      {
        if k < |p| {
          assert d[k] == p[k] && p[k] in b[..n];
        } else {
          assert d[k] == b[n] && b[n] !in p;
        }
      }
    }
  }
}

=== FILE: grammar_helper.dfy ===
/** The suggestion engine of `src/app/logic/helper/grammar.helper.ts`: a
    decision table over the types of the last two tokens, cut to one page. */
module GrammarHelper {
  import opened Text
  import Seqs
  import opened Types
  import opened Tokenizer
  import Filter
  import TokenizerProofs

  /** The page size `getSuggestions` uses when the caller gives none. */
  const DefaultPageSize: int := 10

  /** `Array.prototype.slice(0, n)`: a negative `n` counts from the end. */
  function Page(s: seq<string>, n: int): (r: seq<string>)
    ensures Seqs.IsPrefix(r, s)
    ensures 0 <= n ==> |r| == (if n < |s| then n else |s|)
    ensures n < 0 ==> |r| == (if 0 < |s| + n then |s| + n else 0)
  {
    var end := if n < 0 then |s| + n else n;
    if end <= 0 then [] else if end >= |s| then s else s[..end]
  }

  /** `tokens[tokens.length - back] || ''`: the token `back` places from the
      end, or the empty string when the list is too short. */
  function FromEnd(tokens: seq<string>, back: nat): (t: string)
    requires 1 <= back
  {
    if back <= |tokens| then tokens[|tokens| - back] else ""
  }

  /** `(` followed by every variable: what may start a term. */
  function TermStarters(data: GrammarData): seq<string> {
    ["("] + data.variables
  }

  /** A closing parenthesis when one is still open. */
  function Closer(tokens: seq<string>): seq<string> {
    if CountOpenParens(tokens) > 0 then [")"] else []
  }

  /** The stored values of `v` whose lower-cased form contains `needle`,
      in stored order. */
  function ValuesContaining(data: GrammarData, v: string, needle: string): (vals: seq<string>)
    ensures forall x :: x in vals <==> x in ValuesOf(data, v) && Contains(Lower(x), needle)
  {
    var vs, p := ValuesOf(data, v), (x: string) => Contains(Lower(x), needle);
    Seqs.FilterMembers(vs, p);
    Seqs.Filter(vs, p)
  }

  /** `c` is what filtering `vals` by `needle` must give: exactly the
      values whose lower-cased form contains `needle`, each as often as in
      `vals`, in the order of `vals`. */
  ghost predicate MatchingSelection(c: seq<string>, vals: seq<string>, needle: string) {
    && (forall x :: x in c <==> x in vals && Contains(Lower(x), needle))
    && (forall x :: multiset(c)[x] == if Contains(Lower(x), needle) then multiset(vals)[x] else 0)
    && Seqs.IsSubsequence(c, vals)
  }

  /** The matching values keep the stored order, and each one as often as
      it is stored. */
  lemma MatchingValuesKept(vals: seq<string>, data: GrammarData, v: string, needle: string)
    requires vals == ValuesContaining(data, v, needle)
    ensures MatchingSelection(vals, ValuesOf(data, v), needle)
  {
    var vs, p := ValuesOf(data, v), (x: string) => Contains(Lower(x), needle);
    assert vals == Seqs.Filter(vs, p);
    Seqs.FilterCounts(vs, p);
    Seqs.FilterSubsequence(vs, p);
    forall x ensures multiset(vals)[x] == if Contains(Lower(x), needle) then multiset(vs)[x] else 0 {
      assert p(x) == Contains(Lower(x), needle);
    }
  }

  /** The rows of the decision table. */
  datatype Decision =
    | OfferTerm             // `(` or a variable may come next
    | OfferConnective       // an operator, a logical or `)` may come next
    | OfferValues           // a value of the variable before the operator
    | OfferMatchingValues   // the values matching a partly typed quoted value
    | OfferContinuation     // a logical or `)` may come next
    | OfferRankedVariables  // the variables matching an unknown word

  /** The row of the decision table that the last token `last`, of type
      `lastType`, and the type `prevType` of the token before it select;
      the first matching row wins. */
  function Decide(last: string, lastType: TokType, prevType: TokType): Decision {
    if last == "" then OfferTerm
    else if lastType == LParen then OfferTerm
    else if lastType == Var then OfferConnective
    else if lastType == Op && prevType == Var then OfferValues
    else if lastType == ValuePartial && prevType == Op then OfferMatchingValues
    else if lastType == Value then OfferContinuation
    else if lastType == RParen then OfferContinuation
    else if lastType == Logical then OfferTerm
    else if lastType == Unknown then OfferRankedVariables
    else OfferTerm
  }

  /** JavaScript's `s.slice(1)`: all but the first character; nothing
      left of the empty string. */
  function DropFirst(s: string): (r: string)
  {
    if |s| > 0 then s[1..] else ""
  }

  /** The candidates each decision offers, before the page cut. */
  function Offer(dec: Decision, tokens: seq<string>, data: GrammarData): (c: seq<string>) {
    match dec
    case OfferTerm => TermStarters(data)
    case OfferConnective => Filter.Dedupe(data.operators + data.logicals) + Closer(tokens)
    case OfferValues => ValuesOf(data, FromEnd(tokens, 2))
    case OfferMatchingValues =>
      ValuesContaining(data, FromEnd(tokens, 3), Lower(DropFirst(FromEnd(tokens, 1))))
    case OfferContinuation => data.logicals + Closer(tokens)
    case OfferRankedVariables => Filter.SmartFilter(Lower(FromEnd(tokens, 1)), data.variables)
  }

  /** The decision table applied to the last two tokens. */
  function Candidates(tokens: seq<string>, data: GrammarData): (c: seq<string>) {
    var last, prev := FromEnd(tokens, 1), FromEnd(tokens, 2);
    Offer(Decide(last, ClassifyToken(last, data), ClassifyToken(prev, data)), tokens, data)
  }

  /** `getSuggestions`: at most one page of candidates for what may follow
      `query`. */
  function GetSuggestions(query: string, data: GrammarData, pageSize: int): (r: seq<string>)
    ensures 0 <= pageSize ==> |r| <= pageSize
    ensures pageSize < 0 ==> |r| <= |Candidates(Tokenize(query), data)|
  {
    Page(Candidates(Tokenize(query), data), pageSize)
  }

  // ---------------------------------------------------------------------
  // Paging
  // ---------------------------------------------------------------------

  /** A smaller page is a prefix of a larger one. */
  lemma PageMonotone(query: string, data: GrammarData, n: int, m: int)
    requires 0 <= n <= m
    ensures Seqs.IsPrefix(GetSuggestions(query, data, n), GetSuggestions(query, data, m))
  {
    var c := Candidates(Tokenize(query), data);
    var a, b := Page(c, n), Page(c, m);
    assert a == c[..|a|];
    assert b == c[..|b|];
    assert b[..|a|] == c[..|a|];
  }

  /** Monotonicity needs `0 <= n`: a negative page size counts from the
      end, so the page of size -1 can be longer than the page of size 0. */
  lemma NegativePageNotMonotone()
    ensures var d := GrammarData(["x"], [], [], map[]);
      GetSuggestions("", d, -1) == ["("] && GetSuggestions("", d, 0) == []
      && !Seqs.IsPrefix(GetSuggestions("", d, -1), GetSuggestions("", d, 0))
  {
    var d := GrammarData(["x"], [], [], map[]);
    BlankQuery("", d, -1);
    BlankQuery("", d, 0);
    assert (["("] + d.variables)[..1] == ["("];
  }

  /** Without a page size, `getSuggestions` returns at most ten of the
      candidates, the first ones. */
  lemma DefaultPage(query: string, data: GrammarData)
    ensures var r := GetSuggestions(query, data, DefaultPageSize);
      |r| <= 10 && Seqs.IsPrefix(r, Candidates(Tokenize(query), data))
  {
  }

  // ---------------------------------------------------------------------
  // Where a term may start
  // ---------------------------------------------------------------------

  /** An empty or blank query is answered with `(` and the variables. */
  lemma BlankQuery(query: string, data: GrammarData, pageSize: int)
    requires AllSpace(query, 0, |query|)
    ensures GetSuggestions(query, data, pageSize) == Page(["("] + data.variables, pageSize)
  {
    TokenizerProofs.NoTokens(query);
  }

  /** After `(`, after a logical connective, after an operator that does
      not follow a variable, and after a partly typed quoted value that does
      not follow an operator, a new term is offered: `(` and the variables. */
  lemma TermExpected(tokens: seq<string>, data: GrammarData)
    requires |tokens| > 0
    requires var last, prev := tokens[|tokens| - 1], FromEnd(tokens, 2);
      || last == "("
      || ClassifyToken(last, data) == Logical
      || (ClassifyToken(last, data) == Op && ClassifyToken(prev, data) != Var)
      || (ClassifyToken(last, data) == ValuePartial && ClassifyToken(prev, data) != Op)
    ensures Candidates(tokens, data) == ["("] + data.variables
  {
  }

  // ---------------------------------------------------------------------
  // After a variable
  // ---------------------------------------------------------------------

  /** After a variable: every operator and logical once, the operators
      first, and `)` at the end exactly when a parenthesis is open. */
  lemma AfterVariable(tokens: seq<string>, data: GrammarData)
    requires |tokens| > 0 && ClassifyToken(tokens[|tokens| - 1], data) == Var
    ensures var c, open := Candidates(tokens, data), CountOpenParens(tokens) > 0;
      && (forall x :: x in c <==> x in data.operators || x in data.logicals || (x == ")" && open))
      && Seqs.IsPrefix(Filter.Dedupe(data.operators), c)
      && (forall k :: |Filter.Dedupe(data.operators)| <= k < |c| ==>
            c[k] in data.logicals || (k == |c| - 1 && open))
      && (open ==> c[|c| - 1] == ")")
      && (!open || ")" !in data.operators + data.logicals ==> Seqs.NoDup(c))
  {
    var ops, d := Filter.Dedupe(data.operators), Filter.Dedupe(data.operators + data.logicals);
    Filter.DedupeAppend(data.operators, data.logicals);
    var c := Candidates(tokens, data);
    assert c == d + Closer(tokens);
    assert |ops| <= |d|;
    forall k | |ops| <= k < |c|
      ensures c[k] in data.logicals || (k == |c| - 1 && CountOpenParens(tokens) > 0)
    {
      if k < |d| {
        assert c[k] == d[k];
      }
    }
  }

  // ---------------------------------------------------------------------
  // After an operator
  // ---------------------------------------------------------------------

  /** After `VAR OP`: exactly the variable's stored values in stored order,
      and nothing when none are stored. */
  lemma AfterOperator(tokens: seq<string>, data: GrammarData)
    requires |tokens| >= 2
    requires ClassifyToken(tokens[|tokens| - 1], data) == Op
    requires ClassifyToken(tokens[|tokens| - 2], data) == Var
    ensures var v := tokens[|tokens| - 2];
      && (v in data.valuesMap ==> Candidates(tokens, data) == data.valuesMap[v])
      && (v !in data.valuesMap ==> Candidates(tokens, data) == [])
  {
  }

  /** After `OP "partial`: the values of the token three back whose
      lower-cased form contains the typed text, in stored order. */
  lemma AfterPartialValue(tokens: seq<string>, data: GrammarData)
    requires |tokens| >= 2
    requires ClassifyToken(tokens[|tokens| - 1], data) == ValuePartial
    requires ClassifyToken(tokens[|tokens| - 2], data) == Op
    ensures MatchingSelection(Candidates(tokens, data), ValuesOf(data, FromEnd(tokens, 3)), Lower(tokens[|tokens| - 1][1..]))
  {
    MatchingRow(tokens, data);
    MatchingValuesKept(Candidates(tokens, data), data, FromEnd(tokens, 3), Lower(tokens[|tokens| - 1][1..]));
  }

  /** A partly typed quoted value after an operator selects the matching row. */
  lemma MatchingRow(tokens: seq<string>, data: GrammarData)
    requires |tokens| >= 2
    requires ClassifyToken(tokens[|tokens| - 1], data) == ValuePartial
    requires ClassifyToken(tokens[|tokens| - 2], data) == Op
    ensures Candidates(tokens, data) == ValuesContaining(data, FromEnd(tokens, 3), Lower(tokens[|tokens| - 1][1..]))
  {
    var last := tokens[|tokens| - 1];
    assert Decide(last, ClassifyToken(last, data), ClassifyToken(FromEnd(tokens, 2), data)) == OfferMatchingValues;
    DecisionOf(tokens, data);
    MatchingOffer(tokens, data);
    assert DropFirst(last) == last[1..];
  }

  /** Matching offers the values of the token three back that contain the
      typed text after its opening quote. */
  lemma MatchingOffer(tokens: seq<string>, data: GrammarData)
    ensures Offer(OfferMatchingValues, tokens, data)
      == ValuesContaining(data, FromEnd(tokens, 3), Lower(DropFirst(FromEnd(tokens, 1))))
  {
  }

  // ---------------------------------------------------------------------
  // After a value or a closing parenthesis
  // ---------------------------------------------------------------------

  /** After a value or `)`: the logicals, then `)` exactly when a
      parenthesis is open. */
  lemma AfterOperand(tokens: seq<string>, data: GrammarData)
    requires |tokens| > 0
    requires var t := ClassifyToken(tokens[|tokens| - 1], data);
      t == Value || t == RParen
    ensures var c, open := Candidates(tokens, data), CountOpenParens(tokens) > 0;
      && c[..|data.logicals|] == data.logicals
      && (open ==> |c| == |data.logicals| + 1 && c[|c| - 1] == ")")
      && (!open ==> |c| == |data.logicals|)
  {
    var last := tokens[|tokens| - 1];
    assert Decide(last, ClassifyToken(last, data), ClassifyToken(FromEnd(tokens, 2), data)) == OfferContinuation;
    var c := Candidates(tokens, data);
    assert c == data.logicals + Closer(tokens);
  }

  // ---------------------------------------------------------------------
  // After an unknown token
  // ---------------------------------------------------------------------

  /** After an unknown token: every variable that contains it, ignoring
      case, and no other string, ranked by `smartFilter`. */
  lemma AfterUnknown(tokens: seq<string>, data: GrammarData)
    requires |tokens| > 0
    requires var last := tokens[|tokens| - 1];
      last != "" && ClassifyToken(last, data) == Unknown
    ensures var last := tokens[|tokens| - 1];
      var c := Candidates(tokens, data);
      && Lower(last) != ""
      && forall x :: x in c <==> x in data.variables && Contains(Lower(x), Lower(last))
  {
    var last := tokens[|tokens| - 1];
    UnknownRow(tokens, data);
    Text.LowerIdempotent(last);
    RankedVariables(Lower(last), data.variables);
  }

  /** The row of the decision table for an unknown last token. */
  lemma UnknownRow(tokens: seq<string>, data: GrammarData)
    requires |tokens| > 0
    requires var last := tokens[|tokens| - 1];
      last != "" && ClassifyToken(last, data) == Unknown
    ensures Candidates(tokens, data) == Filter.SmartFilter(Lower(tokens[|tokens| - 1]), data.variables)
  {
    DecisionOf(tokens, data);
    RankedOffer(tokens, data);
  }

  /** The candidates are the offer of the decision taken on the last two tokens. */
  lemma DecisionOf(tokens: seq<string>, data: GrammarData)
    ensures var last, prev := FromEnd(tokens, 1), FromEnd(tokens, 2);
      Candidates(tokens, data) == Offer(Decide(last, ClassifyToken(last, data), ClassifyToken(prev, data)), tokens, data)
  {
  }

  /** Ranking offers the variables filtered by the last token. */
  lemma RankedOffer(tokens: seq<string>, data: GrammarData)
    ensures Offer(OfferRankedVariables, tokens, data) == Filter.SmartFilter(Lower(FromEnd(tokens, 1)), data.variables)
  {
  }

  /** For a non-empty lower-case query, the ranked variables are exactly
      those that contain it, ignoring case. */
  lemma RankedVariables(q: string, vars: seq<string>)
    requires q != "" && Lower(q) == q
    ensures forall x :: x in Filter.SmartFilter(q, vars) <==> x in vars && Contains(Lower(x), q)
  {
    Filter.SmartFilterComplete(q, vars);
    forall x | x in vars && Contains(Lower(x), q)
      ensures x in Filter.SmartFilter(q, vars)
    {
      assert multiset(vars)[x] > 0;
    }
  }

  // ---------------------------------------------------------------------
  // A closed vocabulary
  // ---------------------------------------------------------------------

  /** `x` is a word of the grammar: a paren, a variable, an operator, a
      logical or one of the stored values. */
  ghost predicate InGrammar(data: GrammarData, x: string) {
    || x == "(" || x == ")"
    || x in data.variables || x in data.operators || x in data.logicals
    || exists v :: v in data.valuesMap && x in data.valuesMap[v]
  }

  /** Values drawn from those stored under `v` are words of the grammar. */
  lemma StoredValuesInGrammar(data: GrammarData, v: string, c: seq<string>)
    requires forall x :: x in c ==> x in ValuesOf(data, v)
    ensures forall x :: x in c ==> InGrammar(data, x)
  {
    forall x | x in c ensures InGrammar(data, x) {
      assert v in data.valuesMap && x in data.valuesMap[v];
    }
  }

  /** Whatever the decision, every candidate is a word of the grammar. */
  lemma OfferInGrammar(dec: Decision, tokens: seq<string>, data: GrammarData)
    ensures forall x :: x in Offer(dec, tokens, data) ==> InGrammar(data, x)
  {
    match dec
    case OfferTerm =>
    case OfferConnective =>
    case OfferValues =>
      StoredValuesInGrammar(data, FromEnd(tokens, 2), Offer(dec, tokens, data));
    case OfferMatchingValues =>
      StoredValuesInGrammar(data, FromEnd(tokens, 3), Offer(dec, tokens, data));
    case OfferContinuation =>
    case OfferRankedVariables =>
  }

  /** Every candidate is a word of the grammar; nothing is invented. */
  lemma CandidatesInGrammar(tokens: seq<string>, data: GrammarData)
    ensures forall x :: x in Candidates(tokens, data) ==> InGrammar(data, x)
  {
    var last, prev := FromEnd(tokens, 1), FromEnd(tokens, 2);
    OfferInGrammar(Decide(last, ClassifyToken(last, data), ClassifyToken(prev, data)), tokens, data);
  }

  /** Every suggestion is a word of the grammar; nothing is invented. */
  lemma SuggestionsInGrammar(query: string, data: GrammarData, pageSize: int)
    ensures forall x :: x in GetSuggestions(query, data, pageSize) ==> InGrammar(data, x)
  {
    var c := Candidates(Tokenize(query), data);
    var r := GetSuggestions(query, data, pageSize);
    CandidatesInGrammar(Tokenize(query), data);
    assert forall k :: 0 <= k < |r| ==> r[k] == c[k];
  }
}

=== FILE: seqs.dfy ===
/** Sequence helpers: order-preserving filtering, duplicate-freedom
    and concatenation of a list of strings. */
module Seqs {

  /** `Array.prototype.filter`: the elements satisfying `p`, in order. */
  function Filter(s: seq<string>, p: string -> bool): (r: seq<string>)
    ensures |r| <= |s|
  {
    if |s| == 0 then []
    else (if p(s[0]) then [s[0]] else []) + Filter(s[1..], p)
  }

  /** Exactly the elements satisfying `p` survive filtering. */
  lemma {:induction false} FilterMembers(s: seq<string>, p: string -> bool)
    ensures forall x :: x in Filter(s, p) <==> x in s && p(x)
  {
    if |s| > 0 {
      FilterMembers(s[1..], p);
      assert s == [s[0]] + s[1..];
    }
  }

  /** Filtering keeps every satisfying element with its multiplicity and
      drops the others. */
  lemma {:induction false} FilterCounts(s: seq<string>, p: string -> bool)
    ensures forall x :: multiset(Filter(s, p))[x] == if p(x) then multiset(s)[x] else 0
  {
    if |s| > 0 {
      FilterCounts(s[1..], p);
      assert s == [s[0]] + s[1..];
    }
  }

  /** `a` is `b` with some elements left out and the rest in their order:
      matching each element of `a` against the earliest possible one of `b`
      succeeds. */
  predicate IsSubsequence(a: seq<string>, b: seq<string>)
    decreases |b|
  {
    |a| == 0
    || (|b| > 0 && if a[0] == b[0] then IsSubsequence(a[1..], b[1..]) else IsSubsequence(a, b[1..]))
  }

  /** Filtering keeps the surviving elements in their original order. */
  lemma {:induction false} FilterSubsequence(s: seq<string>, p: string -> bool)
    ensures IsSubsequence(Filter(s, p), s)
  {
    if |s| > 0 {
      FilterSubsequence(s[1..], p);
      var r, rest := Filter(s, p), Filter(s[1..], p);
      if p(s[0]) {
        assert r[0] == s[0] && r[1..] == rest;
      } else if |r| > 0 {
        FilterMembers(s[1..], p);
        assert r == rest && p(r[0]);
      }
    }
  }

  lemma FilterCons(x: string, s: seq<string>, p: string -> bool)
    ensures Filter([x] + s, p) == (if p(x) then [x] else []) + Filter(s, p)
  {
    assert ([x] + s)[1..] == s;
  }

  lemma {:induction false} FilterConcat(a: seq<string>, b: seq<string>, p: string -> bool)
    ensures Filter(a + b, p) == Filter(a, p) + Filter(b, p)
  {
    if |a| == 0 {
      assert a + b == b;
    } else {
      var x, h := a[0], (if p(a[0]) then [a[0]] else []);
      assert a == [x] + a[1..];
      assert a + b == [x] + (a[1..] + b);
      FilterCons(x, a[1..] + b, p);
      FilterCons(x, a[1..], p);
      FilterConcat(a[1..], b, p);
      assert h + (Filter(a[1..], p) + Filter(b, p)) == (h + Filter(a[1..], p)) + Filter(b, p);
    }
  }

  /** Filtering keeps everything when every element satisfies `p`. */
  lemma {:induction false} FilterAll(s: seq<string>, p: string -> bool)
    requires forall x :: x in s ==> p(x)
    ensures Filter(s, p) == s
  {
    if |s| > 0 {
      FilterAll(s[1..], p);
      assert s[0] in s;
      assert s == [s[0]] + s[1..];
    }
  }

  /** Filtering keeps nothing when no element satisfies `p`. */
  lemma {:induction false} FilterNone(s: seq<string>, p: string -> bool)
    requires forall x :: x in s ==> !p(x)
    ensures Filter(s, p) == []
  {
    if |s| > 0 {
      FilterNone(s[1..], p);
      assert s[0] in s;
    }
  }

  predicate NoDup<T(==)>(s: seq<T>) {
    forall i, j :: 0 <= i < j < |s| ==> s[i] != s[j]
  }

  /** Index of the first occurrence of `x` in `s`. */
  function FirstIndex<T(==)>(s: seq<T>, x: T): (k: nat)
    requires x in s
    ensures k < |s| && s[k] == x
    ensures forall m :: 0 <= m < k ==> s[m] != x
  {
    if s[0] == x then 0 else 1 + FirstIndex(s[1..], x)
  }

  /** `p` is a prefix of `s`. */
  predicate IsPrefix<T(==)>(p: seq<T>, s: seq<T>) {
    |p| <= |s| && s[..|p|] == p
  }

  /** The strings of `ts` joined with no separator. */
  function Concat(ts: seq<string>): string {
    if |ts| == 0 then [] else ts[0] + Concat(ts[1..])
  }

  lemma {:induction false} ConcatAppend(ts: seq<string>, t: string)
    ensures Concat(ts + [t]) == Concat(ts) + t
  {
    if |ts| == 0 {
      assert [t][1..] == [];
    } else {
      assert (ts + [t])[1..] == ts[1..] + [t];
      ConcatAppend(ts[1..], t);
    }
  }
}

=== FILE: text.dfy ===
/** Character classes and string predicates shared by the lexer, the ranking
    filter and the classifier. Strings are sequences of characters. */
module Text {

  /** The characters the JavaScript pattern `\s` matches: the ECMAScript
      WhiteSpace and LineTerminator code points. */
  predicate IsSpace(c: char) {
    || c == ' ' || c == '\t' || c == '\n' || c == '\r'
    || c == '\U{B}' || c == '\U{C}' || c == '\U{A0}' || c == '\U{1680}'
    || ('\U{2000}' <= c <= '\U{200A}')
    || c == '\U{2028}' || c == '\U{2029}' || c == '\U{202F}' || c == '\U{205F}'
    || c == '\U{3000}' || c == '\U{FEFF}'
  }

  /** Lower-casing of one character, restricted to the ASCII letters. */
  function LowerChar(c: char): (r: char)
    ensures 'A' <= c <= 'Z' ==> 'a' <= r <= 'z'
    ensures !('A' <= c <= 'Z') ==> r == c
  {
    if 'A' <= c <= 'Z' then (c as int - 'A' as int + 'a' as int) as char else c
  }

  /** `String.prototype.toLowerCase`, restricted to the ASCII letters. */
  function Lower(s: string): (r: string)
    ensures |r| == |s|
    ensures forall k :: 0 <= k < |s| ==> r[k] == LowerChar(s[k])
  {
    seq(|s|, k requires 0 <= k < |s| => LowerChar(s[k]))
  }

  lemma LowerIdempotent(s: string)
    ensures Lower(Lower(s)) == Lower(s)
  {
  }

  lemma LowerConcat(a: string, b: string)
    ensures Lower(a + b) == Lower(a) + Lower(b)
  {
  }

  predicate StartsWith(s: string, p: string) {
    |p| <= |s| && s[..|p|] == p
  }

  predicate EndsWith(s: string, p: string) {
    |p| <= |s| && s[|s| - |p|..] == p
  }

  /** `q` occurs in `s` starting at index `k`. */
  predicate OccursAt(s: string, q: string, k: int) {
    0 <= k <= |s| - |q| && s[k..k + |q|] == q
  }

  /** `String.prototype.includes`: `q` occurs as a contiguous piece of `s`. */
  predicate Contains(s: string, q: string) {
    exists k :: 0 <= k <= |s| - |q| && OccursAt(s, q, k)
  }

  lemma StartsWithContains(s: string, q: string)
    requires StartsWith(s, q)
    ensures Contains(s, q)
  {
    assert OccursAt(s, q, 0);
  }

  lemma EndsWithContains(s: string, q: string)
    requires EndsWith(s, q)
    ensures Contains(s, q)
  {
    var k := |s| - |q|;
    assert OccursAt(s, q, k);
  }

  /** The token opens with a double quote. */
  predicate OpensQuote(t: string) {
    |t| > 0 && t[0] == '"'
  }

  /** The token closes with a double quote. */
  predicate ClosesQuote(t: string) {
    |t| > 0 && t[|t| - 1] == '"'
  }
}

=== FILE: tokenizer.dfy ===
/** The lexer, the token classifier and the parenthesis balance of
    `src/app/logic/utils/tokenizer.ts`. */
module Tokenizer {
  import opened Text
  import opened Types

  // ---------------------------------------------------------------------
  // Character classes of the lexer
  // ---------------------------------------------------------------------

  /** The identifier class `[A-Za-z0-9_\-.:]`. */
  predicate IsWordChar(c: char) {
    || ('A' <= c <= 'Z') || ('a' <= c <= 'z') || ('0' <= c <= '9')
    || c == '_' || c == '-' || c == '.' || c == ':'
  }

  predicate IsParen(c: char) {
    c == '(' || c == ')'
  }

  predicate IsTwoCharOperator(t: string) {
    t == "==" || t == "!=" || t == ">=" || t == "<="
  }

  predicate IsOneCharOperator(c: char) {
    c == '>' || c == '<' || c == '='
  }

  /** A two-character operator starts at index `i` of `s`. */
  predicate TwoCharOperatorAt(s: string, i: nat) {
    i + 2 <= |s| && IsTwoCharOperator(s[i..i + 2])
  }

  /** No double quote in `s[a..b]`. */
  predicate QuoteFree(s: string, a: int, b: int) {
    forall m :: a <= m < b && 0 <= m < |s| ==> s[m] != '"'
  }

  /** Only whitespace in `s[a..b]`. */
  predicate AllSpace(s: string, a: int, b: int) {
    forall m :: a <= m < b && 0 <= m < |s| ==> IsSpace(s[m])
  }

  // ---------------------------------------------------------------------
  // Scanning
  // ---------------------------------------------------------------------

  /** The index of the first double quote at or after `j`, or `|s|`. */
  function QuoteScan(s: string, j: nat): (k: nat)
    requires j <= |s|
    ensures j <= k <= |s|
    ensures k < |s| ==> s[k] == '"'
    ensures QuoteFree(s, j, k)
    decreases |s| - j
  {
    if j == |s| || s[j] == '"' then j else QuoteScan(s, j + 1)
  }

  /** The index of the first non-identifier character at or after `j`, or `|s|`. */
  function WordScan(s: string, j: nat): (k: nat)
    requires j <= |s|
    ensures j <= k <= |s|
    ensures k < |s| ==> !IsWordChar(s[k])
    ensures forall m :: j <= m < k ==> IsWordChar(s[m])
    decreases |s| - j
  {
    if j == |s| || !IsWordChar(s[j]) then j else WordScan(s, j + 1)
  }

  /** The lexical rules, stated declaratively: `s[p..e]` is the token the
      lexer takes when it meets the non-blank character `s[p]`. A paren is
      one character; a quote runs to the next quote inclusive, or to the end
      of the input when there is none; a two-character operator is taken
      whole; an identifier is a maximal run of identifier characters; any
      other character stands alone. */
  ghost predicate Lexeme(s: string, p: nat, e: nat) {
    && p < e <= |s|
    && !IsSpace(s[p])
    && (IsParen(s[p]) ==> e == p + 1)
    && (s[p] == '"' ==>
          || (p + 2 <= e && s[e - 1] == '"' && QuoteFree(s, p + 1, e - 1))
          || (e == |s| && QuoteFree(s, p + 1, e)))
    && (!IsParen(s[p]) && s[p] != '"' && TwoCharOperatorAt(s, p) ==> e == p + 2)
    && (!TwoCharOperatorAt(s, p) && IsOneCharOperator(s[p]) ==> e == p + 1)
    && (IsWordChar(s[p]) ==>
          && (forall m :: p <= m < e ==> IsWordChar(s[m]))
          && (e == |s| || !IsWordChar(s[e])))
    && ((!IsParen(s[p]) && s[p] != '"' && !TwoCharOperatorAt(s, p)
         && !IsOneCharOperator(s[p]) && !IsWordChar(s[p])) ==> e == p + 1)
  }

  /** The end of the token that starts at the non-blank index `i`: one
      iteration of the lexer's loop. */
  function TokenEnd(s: string, i: nat): (e: nat)
    requires i < |s| && !IsSpace(s[i])
    ensures i < e <= |s|
  {
    var ch := s[i];
    if IsParen(ch) then i + 1
    else if ch == '"' then
      var k := QuoteScan(s, i + 1);
      if k >= |s| then |s| else k + 1
    else if TwoCharOperatorAt(s, i) then i + 2
    else if IsOneCharOperator(ch) then i + 1
    else if IsWordChar(ch) then WordScan(s, i + 1)
    else i + 1
  }

  /** A token together with the index at which it starts in the input. */
  datatype Span = Span(text: string, start: nat) {
    function End(): nat {
      start + |text|
    }
  }

  /** The span's text is the piece of `s` it claims to cover, and is not empty. */
  predicate SpanIn(s: string, sp: Span) {
    && sp.End() <= |s|
    && |sp.text| > 0
    && s[sp.start..sp.End()] == sp.text
  }

  /** The spans of `s[i..]` cover, in order, every non-blank character, and
      only whitespace lies between them. */
  ghost predicate Covers(s: string, i: nat, sps: seq<Span>) {
    && (|sps| == 0 ==> AllSpace(s, i, |s|))
    && (|sps| > 0 ==> AllSpace(s, i, sps[0].start) && AllSpace(s, sps[|sps| - 1].End(), |s|))
    && (forall k :: 0 <= k < |sps| - 1 ==>
          sps[k].End() <= sps[k + 1].start && AllSpace(s, sps[k].End(), sps[k + 1].start))
  }

  /** The lexer's loop from index `i`, keeping each token's position. */
  function LexFrom(s: string, i: nat): (sps: seq<Span>)
    requires i <= |s|
    ensures forall k :: 0 <= k < |sps| ==> SpanIn(s, sps[k]) && i <= sps[k].start
    decreases |s| - i
  {
    if i == |s| then []
    else if IsSpace(s[i]) then LexFrom(s, i + 1)
    else
      var e := TokenEnd(s, i);
      [Span(s[i..e], i)] + LexFrom(s, e)
  }

  function Texts(sps: seq<Span>): (ts: seq<string>)
    ensures |ts| == |sps|
    ensures forall k :: 0 <= k < |sps| ==> ts[k] == sps[k].text
  {
    seq(|sps|, k requires 0 <= k < |sps| => sps[k].text)
  }

  /** `tokenize`: the raw tokens of `input`. It never fails, and no token is empty. */
  function Tokenize(input: string): (tokens: seq<string>)
    ensures forall k :: 0 <= k < |tokens| ==> |tokens[k]| > 0
  {
    Texts(LexFrom(input, 0))
  }

  // ---------------------------------------------------------------------
  // Classification
  // ---------------------------------------------------------------------

  /** A non-empty token that is neither a parenthesis nor a word of the
      vocabulary: only the value rules of `classifyToken` can apply to it. */
  predicate OutsideVocabulary(tok: string, data: GrammarData) {
    tok != "" && tok != "(" && tok != ")"
    && tok !in data.variables && tok !in data.operators && tok !in data.logicals
  }

  /** `classifyToken`: the first matching rule of a fixed priority list. */
  function ClassifyToken(tok: string, data: GrammarData): (r: TokType)
    ensures r == LParen <==> tok == "("
    ensures r == RParen <==> tok == ")"
    ensures r == Var <==> tok != "" && tok != "(" && tok != ")" && tok in data.variables
    ensures r == Op <==> tok != "" && tok != "(" && tok != ")" && tok !in data.variables && tok in data.operators
    ensures r == Logical <==>
      tok != "" && tok != "(" && tok != ")" && tok !in data.variables && tok !in data.operators && tok in data.logicals
    ensures tok == "" ==> r == Unknown
    ensures OutsideVocabulary(tok, data) && |tok| >= 2 && OpensQuote(tok) && ClosesQuote(tok) ==> r == Value
    ensures r == ValuePartial <==> OutsideVocabulary(tok, data) && OpensQuote(tok) && !ClosesQuote(tok)
    ensures (OutsideVocabulary(tok, data) && !(|tok| >= 2 && OpensQuote(tok) && ClosesQuote(tok))
             && !(OpensQuote(tok) && !ClosesQuote(tok))) ==>
      (r == Value <==> KnownLowerValue(data, Lower(tok))) && (r == Unknown <==> !KnownLowerValue(data, Lower(tok)))
    ensures r == Value ==> (|tok| >= 2 && OpensQuote(tok) && ClosesQuote(tok)) || KnownLowerValue(data, Lower(tok))
    ensures r == Unknown && tok != "" ==> tok !in data.variables && tok !in data.operators && tok !in data.logicals
  {
    if tok == "" then Unknown
    else if tok == "(" then LParen
    else if tok == ")" then RParen
    else if tok in data.variables then Var
    else if tok in data.operators then Op
    else if tok in data.logicals then Logical
    else if OpensQuote(tok) && ClosesQuote(tok) && |tok| >= 2 then Value
    else if OpensQuote(tok) && !ClosesQuote(tok) then ValuePartial
    else if KnownLowerValue(data, Lower(tok)) then Value
    else Unknown
  }

  // ---------------------------------------------------------------------
  // Parenthesis balance
  // ---------------------------------------------------------------------

  /** The change a single token makes to the parenthesis balance. */
  function ParenDelta(t: string): int {
    if t == "(" then 1 else if t == ")" then -1 else 0
  }

  /** `countOpenParens`: the number of `(` tokens minus the number of `)`
      tokens; negative when closers outnumber openers. */
  function CountOpenParens(tokens: seq<string>): (bal: int)
    ensures bal == multiset(tokens)["("] as int - multiset(tokens)[")"] as int
  {
    if |tokens| == 0 then 0
    else
      var n := |tokens| - 1;
      assert tokens == tokens[..n] + [tokens[n]];
      CountOpenParens(tokens[..n]) + ParenDelta(tokens[n])
  }
}

=== FILE: tokenizer_proofs.dfy ===
/** Properties of the lexer of `src/app/logic/utils/tokenizer.ts`: coverage
    of the input, the kept characters, the shape of quoted, paren, operator
    and identifier tokens. */
module TokenizerProofs {
  import opened Text
  import opened Seqs
  import opened Types
  import opened Tokenizer

  // ---------------------------------------------------------------------
  // Every token follows the lexical rules
  // ---------------------------------------------------------------------

  /** One iteration of the lexer's loop takes exactly the token the lexical
      rules describe. */
  lemma TokenEndIsLexeme(s: string, i: nat)
    requires i < |s| && !IsSpace(s[i])
    ensures Lexeme(s, i, TokenEnd(s, i))
  {
  }

  /** Every span the lexer produces is a lexeme of the input. */
  lemma {:induction false} LexemesFrom(s: string, i: nat)
    requires i <= |s|
    ensures forall k :: 0 <= k < |LexFrom(s, i)| ==>
      Lexeme(s, LexFrom(s, i)[k].start, LexFrom(s, i)[k].End())
    decreases |s| - i
  {
    if i == |s| {
    } else if IsSpace(s[i]) {
      LexemesFrom(s, i + 1);
    } else {
      var e := TokenEnd(s, i);
      TokenEndIsLexeme(s, i);
      LexemesFrom(s, e);
      var sps := LexFrom(s, i);
      var rest := LexFrom(s, e);
      assert sps == [Span(s[i..e], i)] + rest;
      forall k | 0 <= k < |sps|
        ensures Lexeme(s, sps[k].start, sps[k].End())
      {
        if k > 0 {
          assert sps[k] == rest[k - 1];
        }
      }
    }
  }

  // ---------------------------------------------------------------------
  // Coverage: only whitespace is dropped
  // ---------------------------------------------------------------------

  /** The spans are ordered, and everything outside them is whitespace. */
  lemma {:induction false} LexCovers(s: string, i: nat)
    requires i <= |s|
    ensures Covers(s, i, LexFrom(s, i))
    decreases |s| - i
  {
    if i == |s| {
    } else if IsSpace(s[i]) {
      LexCovers(s, i + 1);
    } else {
      var e := TokenEnd(s, i);
      LexCovers(s, e);
      var rest := LexFrom(s, e);
      assert LexFrom(s, i) == [Span(s[i..e], i)] + rest;
      CoversCons(s, i, e, rest);
    }
  }

  /** A token at `i` ending at `e`, in front of spans that cover `s[e..]`,
      covers `s[i..]`. */
  lemma CoversCons(s: string, i: nat, e: nat, rest: seq<Span>)
    requires i < e <= |s|
    requires Covers(s, e, rest)
    requires |rest| > 0 ==> e <= rest[0].start
    ensures Covers(s, i, [Span(s[i..e], i)] + rest)
  {
    var sps := [Span(s[i..e], i)] + rest;
    assert sps[0].End() == e;
    if |rest| > 0 {
      assert sps[1] == rest[0];
      assert sps[|sps| - 1] == rest[|rest| - 1];
    }
    forall k | 0 <= k < |sps| - 1
      ensures sps[k].End() <= sps[k + 1].start && AllSpace(s, sps[k].End(), sps[k + 1].start)
    {
      if k > 0 {
        assert sps[k] == rest[k - 1] && sps[k + 1] == rest[k];
      }
    }
  }

  /** Reference definition of the characters the lexer keeps: a two-state
      scan that drops whitespace outside double quotes and keeps everything
      else, a quote switching between the two states. */
  function KeepFrom(s: string, i: nat, inQuote: bool): string
    requires i <= |s|
    decreases |s| - i
  {
    if i == |s| then []
    else if inQuote then [s[i]] + KeepFrom(s, i + 1, s[i] != '"')
    else if IsSpace(s[i]) then KeepFrom(s, i + 1, false)
    else [s[i]] + KeepFrom(s, i + 1, s[i] == '"')
  }

  /** Outside quotes, a run with no whitespace and no quote is kept whole. */
  lemma {:induction false} KeepPlainRun(s: string, a: nat, b: nat)
    requires a <= b <= |s|
    requires forall m :: a <= m < b ==> !IsSpace(s[m]) && s[m] != '"'
    ensures KeepFrom(s, a, false) == s[a..b] + KeepFrom(s, b, false)
    decreases b - a
  {
    if a < b {
      KeepPlainRun(s, a + 1, b);
      assert s[a..b] == [s[a]] + s[a + 1..b];
    }
  }

  /** Inside quotes, everything up to and including the closing quote is
      kept, or the rest of the input when no quote closes. */
  lemma {:induction false} KeepQuotedRun(s: string, m: nat, q: nat)
    requires m <= q <= |s|
    requires QuoteFree(s, m, q)
    requires q < |s| ==> s[q] == '"'
    ensures q < |s| ==> KeepFrom(s, m, true) == s[m..q + 1] + KeepFrom(s, q + 1, false)
    ensures q == |s| ==> KeepFrom(s, m, true) == s[m..]
    decreases q - m
  {
    if m < q {
      KeepQuotedRun(s, m + 1, q);
      if q < |s| {
        assert s[m..q + 1] == [s[m]] + s[m + 1..q + 1];
      } else {
        assert s[m..] == [s[m]] + s[m + 1..];
      }
    }
  }

  /** A token that does not open a quote holds no whitespace and no quote. */
  lemma PlainToken(s: string, i: nat)
    requires i < |s| && !IsSpace(s[i]) && s[i] != '"'
    ensures forall m :: i <= m < TokenEnd(s, i) ==> !IsSpace(s[m]) && s[m] != '"'
  {
    var e := TokenEnd(s, i);
    if TwoCharOperatorAt(s, i) && !IsParen(s[i]) {
      assert e == i + 2;
      var two := s[i..i + 2];
      assert two[0] == s[i] && two[1] == s[i + 1];
    } else if IsWordChar(s[i]) && !IsParen(s[i]) && !IsOneCharOperator(s[i]) {
      assert e == WordScan(s, i + 1);
    }
  }

  /** A quoted token is exactly the characters the reference scan keeps for it. */
  lemma KeepQuotedToken(s: string, i: nat)
    requires i < |s| && s[i] == '"'
    ensures KeepFrom(s, i, false) == s[i..TokenEnd(s, i)] + KeepFrom(s, TokenEnd(s, i), false)
  {
    var e := TokenEnd(s, i);
    var q := QuoteScan(s, i + 1);
    assert e == if q < |s| then q + 1 else |s|;
    KeepQuotedRun(s, i + 1, q);
    var tail := KeepFrom(s, e, false);
    assert KeepFrom(s, i, false) == [s[i]] + KeepFrom(s, i + 1, true);
    assert s[i..e] == [s[i]] + s[i + 1..e];
    if q == |s| {
      assert tail == [] && s[i + 1..] == s[i + 1..e];
    }
    assert KeepFrom(s, i + 1, true) == s[i + 1..e] + tail;
    assert [s[i]] + (s[i + 1..e] + tail) == ([s[i]] + s[i + 1..e]) + tail;
  }

  /** One token is exactly the characters the reference scan keeps for it. */
  lemma KeepToken(s: string, i: nat)
    requires i < |s| && !IsSpace(s[i])
    ensures KeepFrom(s, i, false) == s[i..TokenEnd(s, i)] + KeepFrom(s, TokenEnd(s, i), false)
  {
    if s[i] == '"' {
      KeepQuotedToken(s, i);
    } else {
      PlainToken(s, i);
      KeepPlainRun(s, i, TokenEnd(s, i));
    }
  }

  /** Concatenating the tokens gives the input with the whitespace outside
      quoted tokens removed; whitespace inside quotes is kept. */
  lemma {:induction false} ConcatKeepFrom(s: string, i: nat)
    requires i <= |s|
    ensures Concat(Texts(LexFrom(s, i))) == KeepFrom(s, i, false)
    decreases |s| - i
  {
    if i == |s| {
    } else if IsSpace(s[i]) {
      ConcatKeepFrom(s, i + 1);
    } else {
      var e := TokenEnd(s, i);
      ConcatKeepFrom(s, e);
      KeepToken(s, i);
      ConcatTokenStep(s, i);
    }
  }

  /** A token starting at `i` contributes its text, then the rest follows. */
  lemma ConcatTokenStep(s: string, i: nat)
    requires i < |s| && !IsSpace(s[i])
    ensures Concat(Texts(LexFrom(s, i))) == s[i..TokenEnd(s, i)] + Concat(Texts(LexFrom(s, TokenEnd(s, i))))
  {
    var e := TokenEnd(s, i);
    var rest := LexFrom(s, e);
    assert LexFrom(s, i) == [Span(s[i..e], i)] + rest;
    var ts := Texts(LexFrom(s, i));
    assert ts[0] == s[i..e];
    assert ts[1..] == Texts(rest);
  }

  lemma TokenizeKeeps(input: string)
    ensures Concat(Tokenize(input)) == KeepFrom(input, 0, false)
  {
    ConcatKeepFrom(input, 0);
  }

  /** A blank stretch of input yields no tokens. */
  lemma {:induction false} BlankLexesToNothing(s: string, i: nat)
    requires i <= |s| && AllSpace(s, i, |s|)
    ensures LexFrom(s, i) == []
    decreases |s| - i
  {
    if i < |s| {
      BlankLexesToNothing(s, i + 1);
    }
  }

  /** The input has no tokens exactly when it is empty or blank. */
  lemma NoTokens(input: string)
    ensures Tokenize(input) == [] <==> AllSpace(input, 0, |input|)
  {
    if AllSpace(input, 0, |input|) {
      BlankLexesToNothing(input, 0);
    } else {
      LexCovers(input, 0);
    }
  }

  // ---------------------------------------------------------------------
  // Shapes of tokens
  // ---------------------------------------------------------------------

  /** A lexeme that opens a quote either closes at the next quote or runs
      to the end of the input with no second quote. */
  lemma QuotedLexeme(s: string, p: nat, e: nat)
    requires Lexeme(s, p, e) && s[p] == '"'
    ensures var t := s[p..e];
      || (|t| >= 2 && ClosesQuote(t) && QuoteFree(t, 1, |t| - 1))
      || (e == |s| && QuoteFree(t, 1, |t|))
  {
    var t := s[p..e];
    forall m | 0 <= m < |t|
      ensures t[m] == s[p + m]
    {
    }
  }

  /** The token that opens a quote either closes at the next quote, or runs
      to the end of the input with no quote after the opening one and is the
      last token. */
  lemma QuotedSpans(s: string, i: nat)
    requires i <= |s|
    ensures forall k :: 0 <= k < |LexFrom(s, i)| && OpensQuote(LexFrom(s, i)[k].text) ==>
      var t := LexFrom(s, i)[k].text;
      || (|t| >= 2 && ClosesQuote(t) && QuoteFree(t, 1, |t| - 1))
      || (k == |LexFrom(s, i)| - 1 && QuoteFree(t, 1, |t|))
  {
    var sps := LexFrom(s, i);
    LexCovers(s, i);
    LexemesFrom(s, i);
    forall k | 0 <= k < |sps| && OpensQuote(sps[k].text)
      ensures var t := sps[k].text;
        || (|t| >= 2 && ClosesQuote(t) && QuoteFree(t, 1, |t| - 1))
        || (k == |sps| - 1 && QuoteFree(t, 1, |t|))
    {
      var p, e, t := sps[k].start, sps[k].End(), sps[k].text;
      assert SpanIn(s, sps[k]);
      assert t == s[p..e];
      assert s[p] == t[0];
      QuotedLexeme(s, p, e);
      if k < |sps| - 1 {
        assert e <= sps[k + 1].start;
        assert SpanIn(s, sps[k + 1]);
        assert e < |s|;
      }
    }
  }

  /** A quoted token closes at the next quote; an unterminated one is the
      last token and holds no second quote. */
  lemma QuotedTokens(input: string)
    ensures forall k :: 0 <= k < |Tokenize(input)| && OpensQuote(Tokenize(input)[k]) ==>
      var t := Tokenize(input)[k];
      || (|t| >= 2 && ClosesQuote(t) && QuoteFree(t, 1, |t| - 1))
      || (k == |Tokenize(input)| - 1 && QuoteFree(t, 1, |t|))
  {
    QuotedSpans(input, 0);
  }

  /** Outside quotes, parentheses are tokens of their own: a token holding
      a paren is the paren alone or a quoted token. */
  lemma ParenTokens(input: string)
    ensures forall k :: 0 <= k < |Tokenize(input)| && ('(' in Tokenize(input)[k] || ')' in Tokenize(input)[k]) ==>
      Tokenize(input)[k] == "(" || Tokenize(input)[k] == ")" || OpensQuote(Tokenize(input)[k])
  {
    var sps := LexFrom(input, 0);
    var ts := Tokenize(input);
    LexemesFrom(input, 0);
    forall k | 0 <= k < |ts| && ('(' in ts[k] || ')' in ts[k])
      ensures ts[k] == "(" || ts[k] == ")" || OpensQuote(ts[k])
    {
      var p, e := sps[k].start, sps[k].End();
      assert SpanIn(input, sps[k]) && Lexeme(input, p, e);
      ParenLexeme(input, p, e);
    }
  }

  /** A lexeme holding a paren is that paren alone, or a quoted token. */
  lemma ParenLexeme(s: string, p: nat, e: nat)
    requires Lexeme(s, p, e) && ('(' in s[p..e] || ')' in s[p..e])
    ensures s[p..e] == "(" || s[p..e] == ")" || OpensQuote(s[p..e])
  {
    var t := s[p..e];
    var m :| 0 <= m < |t| && IsParen(t[m]);
    assert t[m] == s[p + m];
    if IsParen(s[p]) {
      assert t == [s[p]];
    } else if s[p] == '"' {
      assert t[0] == s[p];
    }
  }

  lemma GreedyOperators(s: string)
    ensures forall k :: 0 <= k < |LexFrom(s, 0)| && LexFrom(s, 0)[k].text in [">", "<", "=", "!"] ==>
      LexFrom(s, 0)[k].End() == |s| || s[LexFrom(s, 0)[k].End()] != '='
  {
    var sps := LexFrom(s, 0);
    LexemesFrom(s, 0);
    forall k | 0 <= k < |sps| && sps[k].text in [">", "<", "=", "!"]
      ensures sps[k].End() == |s| || s[sps[k].End()] != '='
    {
      var p, e := sps[k].start, sps[k].End();
      assert SpanIn(s, sps[k]) && Lexeme(s, p, e);
      assert e == p + 1 && s[p] == sps[k].text[0];
      if e < |s| && s[e] == '=' {
        assert s[p..p + 2] == [s[p], '='];
        assert TwoCharOperatorAt(s, p);
      }
    }
  }

  /** Identifier tokens are maximal runs: the character after one is never
      an identifier character. */
  lemma WordsAreMaximal(s: string)
    ensures forall k :: 0 <= k < |LexFrom(s, 0)| && IsWordChar(LexFrom(s, 0)[k].text[0]) ==>
      && (forall c :: c in LexFrom(s, 0)[k].text ==> IsWordChar(c))
      && (LexFrom(s, 0)[k].End() == |s| || !IsWordChar(s[LexFrom(s, 0)[k].End()]))
  {
    var sps := LexFrom(s, 0);
    LexemesFrom(s, 0);
    forall k | 0 <= k < |sps| && IsWordChar(sps[k].text[0])
      ensures (forall c :: c in sps[k].text ==> IsWordChar(c))
      ensures sps[k].End() == |s| || !IsWordChar(s[sps[k].End()])
    {
      var p, e, t := sps[k].start, sps[k].End(), sps[k].text;
      assert SpanIn(s, sps[k]) && Lexeme(s, p, e);
      assert t[0] == s[p];
      WordLexeme(s, p, e);
    }
  }

  /** A lexeme that starts with an identifier character holds nothing else. */
  lemma WordLexeme(s: string, p: nat, e: nat)
    requires Lexeme(s, p, e) && IsWordChar(s[p])
    ensures forall c :: c in s[p..e] ==> IsWordChar(c)
  {
    var t := s[p..e];
    forall c | c in t
      ensures IsWordChar(c)
    {
      var m :| 0 <= m < |t| && t[m] == c;
      assert t[m] == s[p + m];
    }
  }

  /** `a>=b` lexes as `a`, `>=`, `b`. */
  lemma TwoCharOperatorExample()
    ensures Tokenize("a>=b") == ["a", ">=", "b"]
  {
    var s := "a>=b";
    assert WordScan(s, 1) == 1;
    assert TokenEnd(s, 0) == 1;
    assert s[1..3] == ">=";
    assert TokenEnd(s, 1) == 3;
    assert WordScan(s, 4) == 4;
    assert TokenEnd(s, 3) == 4;
    assert LexFrom(s, 4) == [];
    assert s[0..1] == "a" && s[3..4] == "b";
    assert LexFrom(s, 3) == [Span("b", 3)];
    assert LexFrom(s, 1) == [Span(">=", 1), Span("b", 3)];
    assert LexFrom(s, 0) == [Span("a", 0), Span(">=", 1), Span("b", 3)];
  }

  // ---------------------------------------------------------------------
  // Classification
  // ---------------------------------------------------------------------

  /** The lone `"` both opens and closes a quote, so it is never a partial
      value; unless it is a word of the vocabulary, it is a value exactly
      when `"` is one of the stored values. */
  lemma LoneQuoteClass(data: GrammarData)
    ensures ClassifyToken("\"", data) != ValuePartial
    ensures "\"" !in data.variables && "\"" !in data.operators && "\"" !in data.logicals ==>
      (ClassifyToken("\"", data) == Value <==> KnownLowerValue(data, "\""))
  {
    var q := "\"";
    assert q[0] == '"' && q[|q| - 1] == '"';
    assert Lower(q) == q by {
      assert Lower(q)[0] == LowerChar('"') == '"';
    }
  }

  // ---------------------------------------------------------------------
  // Parenthesis balance
  // ---------------------------------------------------------------------

  /** The balance is additive over concatenation of token lists. */
  lemma {:induction false} CountOpenParensAppend(a: seq<string>, b: seq<string>)
    ensures CountOpenParens(a + b) == CountOpenParens(a) + CountOpenParens(b)
    decreases |b|
  {
    if |b| > 0 {
      var n := |b| - 1;
      assert (a + b)[..|a + b| - 1] == a + b[..n];
      CountOpenParensAppend(a, b[..n]);
    } else {
      assert a + b == a;
    }
  }
}

=== FILE: types.dfy ===
/** The token types and the vocabulary snapshot every core call receives. */
module Types {
  import opened Text

  /** The semantic type of a raw token; recomputed on demand, never stored. */
  datatype TokType = Var | Op | Logical | LParen | RParen | Value | ValuePartial | Unknown

  /** An immutable snapshot of the vocabulary: variable names, operator
      symbols, logical connectives and the known values of each variable. */
  datatype GrammarData = GrammarData(
    variables: seq<string>,
    operators: seq<string>,
    logicals: seq<string>,
    valuesMap: map<string, seq<string>>)

  /** The stored values of variable `v`; a missing key reads as the empty list. */
  function ValuesOf(data: GrammarData, v: string): (vals: seq<string>)
  {
    if v in data.valuesMap then data.valuesMap[v] else []
  }

  /** `needle` (already lower-cased) is, up to ASCII case, one of the values
      stored under some variable: membership in the lower-cased union of all
      value lists. */
  predicate KnownLowerValue(data: GrammarData, needle: string) {
    exists k, v :: k in data.valuesMap && v in data.valuesMap[k] && Lower(v) == needle
  }
}

=== FILE: utils.dfy ===
/** The string and balance helpers of `src/app/logic/utils/utils.ts`. */
module Utils {
  import opened Text
  import opened Types
  import Tokenizer

  /** `stripQuotes`: removes the surrounding quotes of a quoted token, or the
      opening quote of an unterminated one; anything else is unchanged. */
  function StripQuotes(s: string): (r: string)
    ensures |r| <= |s|
    ensures r == s || s == "\"" + r || s == "\"" + r + "\""
    ensures !OpensQuote(s) ==> r == s
  {
    if s == "" then s
    else if |s| >= 2 && OpensQuote(s) && ClosesQuote(s) then s[1..|s| - 1]
    else if OpensQuote(s) && !ClosesQuote(s) then s[1..]
    else s
  }

  /** Quoting and then stripping gives back the original text, whatever it
      holds, including the empty text and texts with quotes inside. */
  lemma StripQuotesRoundTrip(x: string)
    ensures StripQuotes("\"" + x + "\"") == x
  {
    var s := "\"" + x + "\"";
    assert s[1..|s| - 1] == x;
  }

  /** An unterminated quoted text loses only its opening quote. */
  lemma StripUnterminated(x: string)
    requires |x| > 0 && x[|x| - 1] != '"'
    ensures StripQuotes("\"" + x) == x
  {
    var s := "\"" + x;
    assert s[1..] == x;
  }

  /** The lone quote and texts that do not open a quote are unchanged. */
  lemma StripQuotesUnchanged(s: string)
    requires s == "" || s == "\"" || !OpensQuote(s)
    ensures StripQuotes(s) == s
  {
  }

  /** `isKnownValue`: the token, stripped of its quotes, is up to ASCII case
      one of the values stored under some variable; never for the empty token. */
  function IsKnownValue(token: string, data: GrammarData): (known: bool)
    ensures known ==> token != ""
    ensures !OpensQuote(token) ==> (known <==> token != "" && KnownLowerValue(data, Lower(token)))
    ensures OpensQuote(token) && !ClosesQuote(token) ==> (known <==> KnownLowerValue(data, Lower(token[1..])))
    ensures token == "\"" ==> (known <==> KnownLowerValue(data, "\""))
  {
    if token == "" then false
    else KnownLowerValue(data, Lower(StripQuotes(token)))
  }

  /** A quoted token is a known value exactly when its inner text is. */
  lemma KnownValueQuoted(x: string, data: GrammarData)
    ensures IsKnownValue("\"" + x + "\"", data) <==> KnownLowerValue(data, Lower(x))
  {
    StripQuotesRoundTrip(x);
  }

  /** `classifyToken` of this file: the same priority list as the lexer's
      classifier, with the known-value rule going through `IsKnownValue`. */
  function ClassifyToken(tok: string, data: GrammarData): (r: TokType)
    ensures r == LParen <==> tok == "("
    ensures r == RParen <==> tok == ")"
    ensures r == Var <==> tok != "" && tok != "(" && tok != ")" && tok in data.variables
    ensures r == Op <==> tok != "" && tok != "(" && tok != ")" && tok !in data.variables && tok in data.operators
    ensures r == Logical <==>
      tok != "" && tok != "(" && tok != ")" && tok !in data.variables && tok !in data.operators && tok in data.logicals
    ensures tok == "" ==> r == Unknown
    ensures Tokenizer.OutsideVocabulary(tok, data) && |tok| >= 2 && OpensQuote(tok) && ClosesQuote(tok) ==> r == Value
    ensures r == ValuePartial <==> Tokenizer.OutsideVocabulary(tok, data) && OpensQuote(tok) && !ClosesQuote(tok)
    ensures (Tokenizer.OutsideVocabulary(tok, data) && !(|tok| >= 2 && OpensQuote(tok) && ClosesQuote(tok))
             && !(OpensQuote(tok) && !ClosesQuote(tok))) ==>
      (r == Value <==> KnownLowerValue(data, Lower(tok))) && (r == Unknown <==> !KnownLowerValue(data, Lower(tok)))
  {
    if tok == "" then Unknown
    else if tok == "(" then LParen
    else if tok == ")" then RParen
    else if tok in data.variables then Var
    else if tok in data.operators then Op
    else if tok in data.logicals then Logical
    else if OpensQuote(tok) && ClosesQuote(tok) && |tok| >= 2 then Value
    else if OpensQuote(tok) && !ClosesQuote(tok) then ValuePartial
    else if IsKnownValue(tok, data) then Value
    else Unknown
  }

  /** Both classifiers agree on every token and vocabulary: a token that
      reaches the known-value rule is unquoted or the lone quote, and
      stripping leaves both unchanged. */
  lemma ClassifiersAgree(tok: string, data: GrammarData)
    ensures ClassifyToken(tok, data) == Tokenizer.ClassifyToken(tok, data)
  {
    if tok != "" && !(OpensQuote(tok) && ClosesQuote(tok) && |tok| >= 2) && !(OpensQuote(tok) && !ClosesQuote(tok)) {
      assert !OpensQuote(tok) || tok == "\"";
      StripQuotesUnchanged(tok);
    }
  }

  /** `countOpenParens` of this file: a loop over the tokens computing the
      number of `(` tokens minus the number of `)` tokens. */
  method CountOpenParens(tokens: seq<string>) returns (bal: int)
    ensures bal == multiset(tokens)["("] as int - multiset(tokens)[")"] as int
    ensures bal == Tokenizer.CountOpenParens(tokens)
  {
    bal := 0;
    for k := 0 to |tokens|
      invariant bal == Tokenizer.CountOpenParens(tokens[..k])
    {
      assert tokens[..k + 1][..k] == tokens[..k];
      if tokens[k] == "(" {
        bal := bal + 1;
      } else if tokens[k] == ")" {
        bal := bal - 1;
      }
    }
    assert tokens[..|tokens|] == tokens;
  }

  function Min(a: int, b: int): int {
    if a <= b then a else b
  }

  /** `openParensUpTo`: the balance of the first `idx + 1` tokens. The loop
      runs `idx + 1` times; indices past the end read no token. */
  method OpenParensUpTo(tokens: seq<string>, idx: int) returns (bal: int)
    ensures idx < 0 ==> bal == 0
    ensures 0 <= idx ==> bal == Tokenizer.CountOpenParens(tokens[..Min(idx + 1, |tokens|)])
    ensures idx >= |tokens| - 1 ==> bal == Tokenizer.CountOpenParens(tokens)
  {
    bal := 0;
    var k := 0;
    while k <= idx
      invariant 0 <= k
      invariant idx >= 0 ==> k <= idx + 1
      invariant idx < 0 ==> k == 0
      invariant bal == Tokenizer.CountOpenParens(tokens[..Min(k, |tokens|)])
      decreases idx - k
    {
      if k < |tokens| {
        assert tokens[..k + 1][..k] == tokens[..k];
        if tokens[k] == "(" {
          bal := bal + 1;
        } else if tokens[k] == ")" {
          bal := bal - 1;
        }
      }
      k := k + 1;
    }
    assert tokens[..|tokens|] == tokens;
  }
}

=== FILE: validator.dfy ===
/** The recursive-descent validator of `src/app/logic/validator/validator.ts`
    for the grammar

      Expr := Term (LOGICAL Term)*
      Term := VAR OP VALUE | VAR | '(' Expr ')'

    The parser's cursor becomes an index threaded through three mutually
    recursive functions; every step returns its outcome together with the
    index it stopped at. */
module Validator {
  import opened Text
  import opened Types
  import opened Tokenizer

  /** The error messages the validator can report. */
  datatype ValidationError =
    | UnexpectedEnd             // a term was expected but the input ended
    | MissingClosingParen       // `(` Expr without its `)`
    | OperatorWithoutValue      // VAR OP at the end, strict mode
    | UnterminatedValue         // VAR OP "partial, strict mode
    | OperatorMisplaced         // VAR OP followed by a reserved word
    | UnexpectedToken(token: string)  // a term cannot start with `token`
    | TrailingToken(token: string)    // `token` follows a complete expression

  datatype Outcome = Pass | Fail(error: ValidationError)

  /** The outcome of one parsing step and the index the cursor reached. */
  datatype Step = Step(outcome: Outcome, pos: nat)

  /** Whether `validateFormula` tolerates incomplete input when the caller
      does not say. */
  const DefaultAllowPartial: bool := true

  /** The exact message text of each error. */
  function Message(e: ValidationError): (m: string)
    ensures |m| > 0
    ensures e.UnexpectedToken? || e.TrailingToken? ==> Contains(m, "'" + e.token + "'")
  {
    match e
    case UnexpectedEnd => "Unexpected end of input (expected a TERM)."
    case MissingClosingParen => "Error: missing closing ')'."
    case OperatorWithoutValue => "Error: operator must be followed by a value."
    case UnterminatedValue => "Error: unterminated quoted value."
    case OperatorMisplaced => "Error: operator must be between VARIABLE and VALUE."
    case UnexpectedToken(t) => TokenMessage(t, "' where a variable or '(' was expected.")
    case TrailingToken(t) => TokenMessage(t, "' after end of expression.")
  }

  /** A message that quotes the token `t`, then goes on with `rest`. */
  function TokenMessage(t: string, rest: string): (m: string)
    requires |rest| > 0 && rest[0] == '\''
    ensures Contains(m, "'" + t + "'")
  {
    var prefix := "Error: unexpected token '";
    var m := prefix + t + rest;
    assert m[|prefix| - 1..|prefix| + |t| + 1] == "'" + t + "'";
    assert OccursAt(m, "'" + t + "'", |prefix| - 1);
    m
  }

  /** A token that may stand after an operator: anything quoted, or any
      non-empty word that is not reserved. The value lists are not consulted. */
  predicate IsValueToken(tok: string, d: GrammarData) {
    if tok == "" then false
    else if OpensQuote(tok) then true
    else if tok in d.variables || tok in d.operators || tok in d.logicals then false
    else tok != "(" && tok != ")"
  }

  /** A quoted value still being typed: it opens a quote and does not close
      one. The lone `"` closes the quote it opens, so it is not partial. */
  predicate IsPartialQuote(tok: string) {
    OpensQuote(tok) && !ClosesQuote(tok)
  }

  /** A word that starts a variable term: a variable that is neither the
      empty word nor `(`, which the parser tests first. */
  predicate IsVar(v: string, d: GrammarData) {
    v in d.variables && v != "" && v != "("
  }

  /** `parseTerm` at index `i`. */
  function ParseTerm(ts: seq<string>, d: GrammarData, partial: bool, i: nat): (r: Step)
    requires i <= |ts|
    ensures i <= r.pos <= |ts|
    ensures r.outcome.Pass? ==> i < r.pos && (ts[i] == "(" || ts[i] in d.variables)
    ensures r.outcome.Fail? ==> !r.outcome.error.TrailingToken?
    decreases |ts| - i, 1
  {
    if i == |ts| || ts[i] == "" then Step(Fail(UnexpectedEnd), i)
    else if ts[i] == "(" then
      var e := ParseExpr(ts, d, partial, i + 1);
      if e.outcome.Fail? then e
      else if e.pos < |ts| && ts[e.pos] == ")" then Step(Pass, e.pos + 1)
      else Step(Fail(MissingClosingParen), e.pos)
    else if ts[i] in d.variables then
      if i + 1 < |ts| && ts[i + 1] in d.operators then
        var k := i + 2;
        if k == |ts| || ts[k] == "" then
          if partial then Step(Pass, k) else Step(Fail(OperatorWithoutValue), k)
        else if IsPartialQuote(ts[k]) then
          if partial then Step(Pass, k + 1) else Step(Fail(UnterminatedValue), k)
        else if !IsValueToken(ts[k], d) then Step(Fail(OperatorMisplaced), k)
        else Step(Pass, k + 1)
      else Step(Pass, i + 1)
    else Step(Fail(UnexpectedToken(ts[i])), i)
  }

  /** `parseExpr` at index `i`: a term, then the connective loop. */
  function ParseExpr(ts: seq<string>, d: GrammarData, partial: bool, i: nat): (r: Step)
    requires i <= |ts|
    ensures i <= r.pos <= |ts|
    ensures r.outcome.Pass? ==> i < r.pos
    ensures r.outcome.Fail? ==> !r.outcome.error.TrailingToken?
    decreases |ts| - i, 2
  {
    var t := ParseTerm(ts, d, partial, i);
    if t.outcome.Fail? then t else ParseMore(ts, d, partial, t.pos)
  }

  /** The loop of `parseExpr` from index `j`: while a logical connective
      comes next, consume it and one more term. */
  function ParseMore(ts: seq<string>, d: GrammarData, partial: bool, j: nat): (r: Step)
    requires j <= |ts|
    ensures j <= r.pos <= |ts|
    ensures r.outcome.Pass? ==> r.pos == |ts| || ts[r.pos] !in d.logicals
    ensures r.outcome.Fail? ==> !r.outcome.error.TrailingToken?
    decreases |ts| - j, 0
  {
    if j < |ts| && ts[j] in d.logicals then
      var t := ParseTerm(ts, d, partial, j + 1);
      if t.outcome.Fail? then t else ParseMore(ts, d, partial, t.pos)
    else Step(Pass, j)
  }

  /** The validator on a token list: no tokens is valid; otherwise one
      expression that must use up every token. */
  function ValidateTokens(ts: seq<string>, d: GrammarData, partial: bool): (o: Outcome)
    ensures o.Fail? && o.error.TrailingToken? ==> o.error.token in ts && o.error.token !in d.logicals
  {
    if |ts| == 0 then Pass
    else
      var e := ParseExpr(ts, d, partial, 0);
      if e.outcome.Fail? then e.outcome
      else if e.pos < |ts| then Fail(TrailingToken(ts[e.pos]))
      else Pass
  }

  /** `validateFormula`: the empty string on success, otherwise the message
      of the first error met. */
  function ValidateFormula(text: string, d: GrammarData, partial: bool): (msg: string)
    ensures msg == "" <==> ValidateTokens(Tokenize(text), d, partial) == Pass
  {
    match ValidateTokens(Tokenize(text), d, partial)
    case Pass => ""
    case Fail(e) => Message(e)
  }
}

=== FILE: validator_grammar.dfy ===
/** The grammar the validator of `src/app/logic/validator/validator.ts`
    recognises, as parse trees, and the two directions that tie it to the
    parser: every accepted token list is the yield of a well-formed tree
    (in either mode), and in strict mode every well-formed tree's yield is
    accepted when the vocabulary keeps its word classes apart. */
module ValidatorGrammar {
  import opened Types
  import opened Validator

  datatype Term =
    | Group(inner: Expr)                                    // ( Expr )
    | Bare(v: string)                                       // VAR
    | Compare(v: string, op: string, value: string)         // VAR OP VALUE
    | Open(v: string, op: string)                           // VAR OP, tolerant mode
    | PartialCompare(v: string, op: string, value: string)  // VAR OP "partial, tolerant mode

  datatype Expr = Expr(head: Term, tail: Tail)

  /** The connective loop: `LOGICAL Term` repeated. */
  datatype Tail = End | More(conj: string, term: Term, rest: Tail)

  function TermTokens(t: Term): seq<string> {
    match t
    case Group(e) => ["("] + (ExprTokens(e) + [")"])
    case Bare(v) => [v]
    case Compare(v, o, x) => [v, o, x]
    case Open(v, o) => [v, o]
    case PartialCompare(v, o, x) => [v, o, x]
  }

  function ExprTokens(e: Expr): seq<string> {
    TermTokens(e.head) + TailTokens(e.tail)
  }

  function TailTokens(tl: Tail): seq<string> {
    match tl
    case End => []
    case More(l, t, rest) => [l] + (TermTokens(t) + TailTokens(rest))
  }

  /** A term of the grammar over the vocabulary `d`; the two incomplete
      forms belong to tolerant mode only. */
  predicate WFTerm(t: Term, d: GrammarData, partial: bool) {
    match t
    case Group(e) => WFExpr(e, d, partial)
    case Bare(v) => IsVar(v, d)
    case Compare(v, o, x) => IsVar(v, d) && o in d.operators && IsValueToken(x, d) && !IsPartialQuote(x)
    case Open(v, o) => partial && IsVar(v, d) && o in d.operators
    case PartialCompare(v, o, x) => partial && IsVar(v, d) && o in d.operators && IsPartialQuote(x)
  }

  predicate WFExpr(e: Expr, d: GrammarData, partial: bool) {
    WFTerm(e.head, d, partial) && WFTail(e.tail, d, partial)
  }

  predicate WFTail(tl: Tail, d: GrammarData, partial: bool) {
    match tl
    case End => true
    case More(l, t, rest) => l in d.logicals && WFTerm(t, d, partial) && WFTail(rest, d, partial)
  }

  // ---------------------------------------------------------------------
  // Soundness: what the parser accepts is a tree's yield
  // ---------------------------------------------------------------------

  /** Adjacent pieces of `ts` join. */
  lemma JoinSlices(ts: seq<string>, a: nat, b: nat, c: nat)
    requires a <= b <= c <= |ts|
    ensures ts[a..c] == ts[a..b] + ts[b..c]
  {
  }

  /** A word, then two adjacent pieces of `ts`. */
  lemma ConsSlices(ts: seq<string>, j: nat, k: nat, m: nat)
    requires j < k <= m <= |ts|
    ensures ts[j..m] == [ts[j]] + (ts[j + 1..k] + ts[k..m])
  {
    assert ts[j..m] == [ts[j]] + ts[j + 1..m];
    JoinSlices(ts, j + 1, k, m);
  }

  /** A piece of `ts` between `(` and `)`. */
  lemma ParenSlices(ts: seq<string>, i: nat, k: nat)
    requires i < k < |ts| && ts[i] == "(" && ts[k] == ")"
    ensures ts[i..k + 1] == ["("] + (ts[i + 1..k] + [")"])
  {
    ConsSlices(ts, i, k, k + 1);
    assert ts[k..k + 1] == [")"];
  }

  lemma {:induction false} TermSound(ts: seq<string>, d: GrammarData, partial: bool, i: nat) returns (t: Term)
    requires i <= |ts| && ParseTerm(ts, d, partial, i).outcome.Pass?
    ensures WFTerm(t, d, partial) && TermTokens(t) == ts[i..ParseTerm(ts, d, partial, i).pos]
    decreases |ts| - i, 1
  {
    if ts[i] == "(" {
      var e := ExprSound(ts, d, partial, i + 1);
      var k := ParseExpr(ts, d, partial, i + 1).pos;
      t := Group(e);
      ParenSlices(ts, i, k);
    } else {
      t := VarTermSound(ts, d, partial, i);
    }
  }

  /** Short pieces of `ts`, word by word. */
  lemma ShortSlices(ts: seq<string>, i: nat)
    requires i < |ts|
    ensures ts[i..i + 1] == [ts[i]]
    ensures i + 2 <= |ts| ==> ts[i..i + 2] == [ts[i], ts[i + 1]]
    ensures i + 3 <= |ts| ==> ts[i..i + 3] == [ts[i], ts[i + 1], ts[i + 2]]
  {
  }

  /** The terms that start with a variable. */
  lemma VarTermSound(ts: seq<string>, d: GrammarData, partial: bool, i: nat) returns (t: Term)
    requires i <= |ts| && ParseTerm(ts, d, partial, i).outcome.Pass? && ts[i] != "("
    ensures WFTerm(t, d, partial) && TermTokens(t) == ts[i..ParseTerm(ts, d, partial, i).pos]
  {
    var r := ParseTerm(ts, d, partial, i);
    ShortSlices(ts, i);
    if i + 1 < |ts| && ts[i + 1] in d.operators {
      var k := i + 2;
      if k == |ts| || ts[k] == "" {
        t := Open(ts[i], ts[i + 1]);
        assert r.pos == i + 2;
      } else if IsPartialQuote(ts[k]) {
        t := PartialCompare(ts[i], ts[i + 1], ts[k]);
        assert r.pos == i + 3;
      } else {
        t := Compare(ts[i], ts[i + 1], ts[k]);
        assert r.pos == i + 3;
      }
    } else {
      t := Bare(ts[i]);
      assert r.pos == i + 1;
    }
  }

  lemma {:induction false} ExprSound(ts: seq<string>, d: GrammarData, partial: bool, i: nat) returns (e: Expr)
    requires i <= |ts| && ParseExpr(ts, d, partial, i).outcome.Pass?
    ensures WFExpr(e, d, partial) && ExprTokens(e) == ts[i..ParseExpr(ts, d, partial, i).pos]
    decreases |ts| - i, 2
  {
    var head := TermSound(ts, d, partial, i);
    var k := ParseTerm(ts, d, partial, i).pos;
    var tail := MoreSound(ts, d, partial, k);
    e := Expr(head, tail);
    JoinSlices(ts, i, k, ParseMore(ts, d, partial, k).pos);
  }

  lemma {:induction false} MoreSound(ts: seq<string>, d: GrammarData, partial: bool, j: nat) returns (tl: Tail)
    requires j <= |ts| && ParseMore(ts, d, partial, j).outcome.Pass?
    ensures WFTail(tl, d, partial) && TailTokens(tl) == ts[j..ParseMore(ts, d, partial, j).pos]
    decreases |ts| - j, 0
  {
    if j < |ts| && ts[j] in d.logicals {
      var t := TermSound(ts, d, partial, j + 1);
      var k := ParseTerm(ts, d, partial, j + 1).pos;
      var rest := MoreSound(ts, d, partial, k);
      tl := More(ts[j], t, rest);
      ConsSlices(ts, j, k, ParseMore(ts, d, partial, k).pos);
    } else {
      tl := End;
    }
  }

  /** Every non-empty token list the validator accepts, in either mode, is
      the yield of a well-formed expression of that mode. */
  lemma Soundness(ts: seq<string>, d: GrammarData, partial: bool)
    requires |ts| > 0 && ValidateTokens(ts, d, partial) == Pass
    ensures exists e :: WFExpr(e, d, partial) && ExprTokens(e) == ts
  {
    var e := ExprSound(ts, d, partial, 0);
    assert ts[0..|ts|] == ts;
  }

  // ---------------------------------------------------------------------
  // Completeness in strict mode
  // ---------------------------------------------------------------------

  /** The vocabulary keeps connectives apart from operators and reserves
      `)`: no logical is also an operator, and `)` is neither. */
  predicate Separated(d: GrammarData) {
    && (forall l :: l in d.logicals ==> l !in d.operators)
    && ")" !in d.logicals && ")" !in d.operators
  }

  /** What may follow a term: the end, or a word that is not an operator. */
  predicate TermMayEnd(ts: seq<string>, k: nat, d: GrammarData) {
    k >= |ts| || ts[k] !in d.operators
  }

  /** What may follow an expression: the end, or a word that is neither an
      operator nor a logical. */
  predicate ExprMayEnd(ts: seq<string>, k: nat, d: GrammarData) {
    k >= |ts| || (ts[k] !in d.operators && ts[k] !in d.logicals)
  }

  /** `y` stands in `ts` from index `i` on. */
  predicate At(ts: seq<string>, i: nat, y: seq<string>) {
    i + |y| <= |ts| && forall m :: 0 <= m < |y| ==> ts[i + m] == y[m]
  }

  lemma AtHead(ts: seq<string>, i: nat, y: seq<string>)
    requires At(ts, i, y) && |y| > 0
    ensures ts[i] == y[0]
  {
    assert ts[i + 0] == y[0];
  }

  /** `a + b` at `i` is `a` at `i` and `b` right after it. */
  lemma AtSplit(ts: seq<string>, i: nat, a: seq<string>, b: seq<string>)
    requires At(ts, i, a + b)
    ensures At(ts, i, a) && At(ts, i + |a|, b)
  {
    forall m | 0 <= m < |a| ensures ts[i + m] == a[m] {
      assert (a + b)[m] == a[m];
    }
    forall m | 0 <= m < |b| ensures ts[i + |a| + m] == b[m] {
      assert (a + b)[|a| + m] == b[m];
    }
  }

  /** `[c] + (a + b)` at `j` is `c`, then `a`, then `b`. */
  lemma AtCons(ts: seq<string>, j: nat, c: string, a: seq<string>, b: seq<string>)
    requires At(ts, j, [c] + (a + b))
    ensures ts[j] == c && At(ts, j + 1, a) && At(ts, j + 1 + |a|, b)
  {
    AtSplit(ts, j, [c], a + b);
    AtHead(ts, j, [c]);
    AtSplit(ts, j + 1, a, b);
  }

  lemma CompareComplete(ts: seq<string>, d: GrammarData, i: nat, v: string, o: string, x: string)
    requires IsVar(v, d) && o in d.operators && IsValueToken(x, d) && !IsPartialQuote(x)
    requires i + 3 <= |ts| && ts[i] == v && ts[i + 1] == o && ts[i + 2] == x
    ensures ParseTerm(ts, d, false, i) == Step(Pass, i + 3)
  {
  }

  lemma BareComplete(ts: seq<string>, d: GrammarData, i: nat, v: string)
    requires IsVar(v, d) && i < |ts| && ts[i] == v && TermMayEnd(ts, i + 1, d)
    ensures ParseTerm(ts, d, false, i) == Step(Pass, i + 1)
  {
  }

  lemma GroupComplete(ts: seq<string>, d: GrammarData, i: nat, k: nat)
    requires i < k < |ts| && ts[i] == "(" && ts[k] == ")"
    requires ParseExpr(ts, d, false, i + 1) == Step(Pass, k)
    ensures ParseTerm(ts, d, false, i) == Step(Pass, k + 1)
  {
  }

  lemma {:induction false} TermComplete(ts: seq<string>, d: GrammarData, i: nat, t: Term)
    requires Separated(d) && WFTerm(t, d, false)
    requires At(ts, i, TermTokens(t)) && TermMayEnd(ts, i + |TermTokens(t)|, d)
    ensures ParseTerm(ts, d, false, i) == Step(Pass, i + |TermTokens(t)|)
    decreases t, 1
  {
    match t
    case Group(e) =>
      var inner := ExprTokens(e);
      AtCons(ts, i, "(", inner, [")"]);
      AtHead(ts, i + 1 + |inner|, [")"]);
      ExprComplete(ts, d, i + 1, e);
      GroupComplete(ts, d, i, i + 1 + |inner|);
    case Compare(v, o, x) =>
      assert [v, o, x][0] == v && [v, o, x][1] == o && [v, o, x][2] == x;
      CompareComplete(ts, d, i, v, o, x);
    case Bare(v) =>
      AtHead(ts, i, [v]);
      BareComplete(ts, d, i, v);
    case Open(_, _) =>
    case PartialCompare(_, _, _) =>
  }

  /** One round of the connective loop. */
  lemma MoreStep(ts: seq<string>, d: GrammarData, j: nat, k: nat)
    requires j < |ts| && ts[j] in d.logicals && j + 1 <= |ts|
    requires ParseTerm(ts, d, false, j + 1) == Step(Pass, k)
    ensures ParseMore(ts, d, false, j) == ParseMore(ts, d, false, k)
  {
  }

  /** The connective loop stops before a word that is not a logical. */
  lemma MoreStop(ts: seq<string>, d: GrammarData, j: nat)
    requires j <= |ts| && ExprMayEnd(ts, j, d)
    ensures ParseMore(ts, d, false, j) == Step(Pass, j)
  {
  }

  /** An expression is its first term, then the connective loop. */
  lemma ExprStep(ts: seq<string>, d: GrammarData, i: nat, k: nat)
    requires i <= |ts| && ParseTerm(ts, d, false, i) == Step(Pass, k)
    ensures ParseExpr(ts, d, false, i) == ParseMore(ts, d, false, k)
  {
  }

  lemma {:induction false} ExprComplete(ts: seq<string>, d: GrammarData, i: nat, e: Expr)
    requires Separated(d) && WFExpr(e, d, false)
    requires At(ts, i, ExprTokens(e)) && ExprMayEnd(ts, i + |ExprTokens(e)|, d)
    ensures ParseExpr(ts, d, false, i) == Step(Pass, i + |ExprTokens(e)|)
    decreases e, 1
  {
    var h, tl := TermTokens(e.head), TailTokens(e.tail);
    var k := i + |h|;
    AtSplit(ts, i, h, tl);
    if e.tail.More? {
      TailStartsWithConj(e.tail);
      AtHead(ts, k, tl);
    }
    TermComplete(ts, d, i, e.head);
    ExprStep(ts, d, i, k);
    TailComplete(ts, d, k, e.tail);
  }

  lemma {:induction false} TailComplete(ts: seq<string>, d: GrammarData, j: nat, tl: Tail)
    requires Separated(d) && WFTail(tl, d, false)
    requires At(ts, j, TailTokens(tl)) && ExprMayEnd(ts, j + |TailTokens(tl)|, d)
    ensures ParseMore(ts, d, false, j) == Step(Pass, j + |TailTokens(tl)|)
    decreases tl, 1
  {
    match tl
    case End =>
      MoreStop(ts, d, j);
    case More(c, term, rest) =>
      var t, r := TermTokens(term), TailTokens(rest);
      var k := j + 1 + |t|;
      AtCons(ts, j, c, t, r);
      if rest.More? {
        TailStartsWithConj(rest);
        AtHead(ts, k, r);
      }
      TermComplete(ts, d, j + 1, term);
      MoreStep(ts, d, j, k);
      TailComplete(ts, d, k, rest);
  }

  lemma TailStartsWithConj(tl: Tail)
    requires tl.More?
    ensures |TailTokens(tl)| > 0 && TailTokens(tl)[0] == tl.conj
  {
  }

  /** In strict mode, over a separated vocabulary, the yield of every
      well-formed expression is accepted. */
  lemma Completeness(e: Expr, d: GrammarData)
    requires Separated(d) && WFExpr(e, d, false)
    ensures ValidateTokens(ExprTokens(e), d, false) == Pass
  {
    var ts := ExprTokens(e);
    assert At(ts, 0, ts);
    ExprComplete(ts, d, 0, e);
  }

  /** In strict mode, over a separated vocabulary, the validator accepts
      exactly the empty list and the yields of the grammar's expressions. */
  lemma StrictCharacterisation(ts: seq<string>, d: GrammarData)
    requires Separated(d)
    ensures ValidateTokens(ts, d, false) == Pass <==>
              |ts| == 0 || exists e :: WFExpr(e, d, false) && ExprTokens(e) == ts
  {
    if |ts| > 0 {
      if ValidateTokens(ts, d, false) == Pass {
        Soundness(ts, d, false);
      }
      if exists e :: WFExpr(e, d, false) && ExprTokens(e) == ts {
        var e :| WFExpr(e, d, false) && ExprTokens(e) == ts;
        Completeness(e, d);
      }
    }
  }

  /** In strict mode, over a separated vocabulary, a trailing-token error
      names the first token after a valid proper prefix. */
  lemma TrailingAfterValidPrefix(ts: seq<string>, d: GrammarData)
    requires Separated(d)
    requires ValidateTokens(ts, d, false).Fail? && ValidateTokens(ts, d, false).error.TrailingToken?
    ensures exists k :: 0 < k < |ts| && ts[k] == ValidateTokens(ts, d, false).error.token
                        && ValidateTokens(ts[..k], d, false) == Pass
  {
    var k := ParseExpr(ts, d, false, 0).pos;
    var e := ExprSound(ts, d, false, 0);
    assert ts[0..k] == ts[..k];
    Completeness(e, d);
  }
}

=== FILE: validator_proofs.dfy ===
/** Properties of the validator of `src/app/logic/validator/validator.ts`:
    the two modes, the irrelevance of the value lists, and the outcome on
    each characteristic shape of input. */
module ValidatorProofs {
  import opened Text
  import opened Types
  import opened Tokenizer
  import TokenizerProofs
  import opened Validator
  import ValidatorGrammar

  // ---------------------------------------------------------------------
  // Tolerant mode accepts everything strict mode accepts
  // ---------------------------------------------------------------------

  lemma {:induction false} TermModes(ts: seq<string>, d: GrammarData, i: nat)
    requires i <= |ts|
    ensures ParseTerm(ts, d, false, i).outcome.Pass? ==> ParseTerm(ts, d, true, i) == ParseTerm(ts, d, false, i)
    decreases |ts| - i, 1
  {
    if i < |ts| && ts[i] == "(" {
      ExprModes(ts, d, i + 1);
    }
  }

  lemma {:induction false} ExprModes(ts: seq<string>, d: GrammarData, i: nat)
    requires i <= |ts|
    ensures ParseExpr(ts, d, false, i).outcome.Pass? ==> ParseExpr(ts, d, true, i) == ParseExpr(ts, d, false, i)
    decreases |ts| - i, 2
  {
    TermModes(ts, d, i);
    var t := ParseTerm(ts, d, false, i);
    if t.outcome.Pass? {
      MoreModes(ts, d, t.pos);
    }
  }

  lemma {:induction false} MoreModes(ts: seq<string>, d: GrammarData, j: nat)
    requires j <= |ts|
    ensures ParseMore(ts, d, false, j).outcome.Pass? ==> ParseMore(ts, d, true, j) == ParseMore(ts, d, false, j)
    decreases |ts| - j, 0
  {
    if j < |ts| && ts[j] in d.logicals {
      TermModes(ts, d, j + 1);
      var t := ParseTerm(ts, d, false, j + 1);
      if t.outcome.Pass? {
        MoreModes(ts, d, t.pos);
      }
    }
  }

  /** What strict mode accepts, tolerant mode accepts too: the only
      branches that depend on the mode turn an error into success. */
  lemma ModeMonotone(text: string, d: GrammarData)
    ensures ValidateTokens(Tokenize(text), d, false) == Pass ==> ValidateTokens(Tokenize(text), d, true) == Pass
  {
    var ts := Tokenize(text);
    if |ts| > 0 {
      ExprModes(ts, d, 0);
    }
  }

  // ---------------------------------------------------------------------
  // The value lists are never consulted
  // ---------------------------------------------------------------------

  /** Two vocabularies with the same words, whatever their value lists. */
  predicate SameWords(d: GrammarData, e: GrammarData) {
    d.variables == e.variables && d.operators == e.operators && d.logicals == e.logicals
  }

  lemma {:induction false} TermValuesIrrelevant(ts: seq<string>, d: GrammarData, e: GrammarData, partial: bool, i: nat)
    requires i <= |ts| && SameWords(d, e)
    ensures ParseTerm(ts, d, partial, i) == ParseTerm(ts, e, partial, i)
    decreases |ts| - i, 1
  {
    if i < |ts| && ts[i] == "(" {
      ExprValuesIrrelevant(ts, d, e, partial, i + 1);
    }
  }

  lemma {:induction false} ExprValuesIrrelevant(ts: seq<string>, d: GrammarData, e: GrammarData, partial: bool, i: nat)
    requires i <= |ts| && SameWords(d, e)
    ensures ParseExpr(ts, d, partial, i) == ParseExpr(ts, e, partial, i)
    decreases |ts| - i, 2
  {
    TermValuesIrrelevant(ts, d, e, partial, i);
    var t := ParseTerm(ts, d, partial, i);
    if t.outcome.Pass? {
      MoreValuesIrrelevant(ts, d, e, partial, t.pos);
    }
  }

  lemma {:induction false} MoreValuesIrrelevant(ts: seq<string>, d: GrammarData, e: GrammarData, partial: bool, j: nat)
    requires j <= |ts| && SameWords(d, e)
    ensures ParseMore(ts, d, partial, j) == ParseMore(ts, e, partial, j)
    decreases |ts| - j, 0
  {
    if j < |ts| && ts[j] in d.logicals {
      TermValuesIrrelevant(ts, d, e, partial, j + 1);
      var t := ParseTerm(ts, d, partial, j + 1);
      if t.outcome.Pass? {
        MoreValuesIrrelevant(ts, d, e, partial, t.pos);
      }
    }
  }

  /** The verdict does not depend on the stored values: a value after an
      operator is judged by its shape alone. */
  lemma ValuesIrrelevant(ts: seq<string>, d: GrammarData, values: map<string, seq<string>>, partial: bool)
    ensures ValidateTokens(ts, d, partial) == ValidateTokens(ts, d.(valuesMap := values), partial)
  {
    if |ts| > 0 {
      ExprValuesIrrelevant(ts, d, d.(valuesMap := values), partial, 0);
    }
  }

  // ---------------------------------------------------------------------
  // Characteristic inputs
  // ---------------------------------------------------------------------

  /** Empty or blank input is valid in both modes. */
  lemma BlankIsValid(text: string, d: GrammarData, partial: bool)
    requires AllSpace(text, 0, |text|)
    ensures ValidateFormula(text, d, partial) == ""
  {
    TokenizerProofs.NoTokens(text);
  }

  /** A bare variable is a complete term. */
  lemma BareVariable(v: string, d: GrammarData, partial: bool)
    requires IsVar(v, d)
    ensures ValidateTokens([v], d, partial) == Pass
  {
    var ts := [v];
    assert ParseTerm(ts, d, partial, 0) == Step(Pass, 1);
    assert ParseExpr(ts, d, partial, 0) == ParseMore(ts, d, partial, 1);
  }

  /** `VAR OP` at the end is accepted exactly in tolerant mode. */
  lemma OperatorAtEnd(v: string, o: string, d: GrammarData, partial: bool)
    requires IsVar(v, d) && o in d.operators
    ensures ValidateTokens([v, o], d, partial) == if partial then Pass else Fail(OperatorWithoutValue)
  {
    var ts := [v, o];
    assert ParseTerm(ts, d, partial, 0) == if partial then Step(Pass, 2) else Step(Fail(OperatorWithoutValue), 2);
    assert ParseMore(ts, d, partial, 2) == Step(Pass, 2);
  }

  /** By default `validateFormula` tolerates incomplete input: a trailing
      operator after a variable is accepted. */
  lemma DefaultToleratesOperatorAtEnd(v: string, o: string, d: GrammarData)
    requires IsVar(v, d) && o in d.operators
    ensures ValidateTokens([v, o], d, DefaultAllowPartial) == Pass
  {
    OperatorAtEnd(v, o, d, DefaultAllowPartial);
  }

  /** `VAR OP "partial` is accepted exactly in tolerant mode. */
  lemma UnterminatedAtEnd(v: string, o: string, q: string, d: GrammarData, partial: bool)
    requires IsVar(v, d) && o in d.operators && IsPartialQuote(q)
    ensures ValidateTokens([v, o, q], d, partial) == if partial then Pass else Fail(UnterminatedValue)
  {
    var ts := [v, o, q];
    assert ParseTerm(ts, d, partial, 0) == if partial then Step(Pass, 3) else Step(Fail(UnterminatedValue), 2);
    assert ParseMore(ts, d, partial, 3) == Step(Pass, 3);
  }

  /** After an operator, a complete token is rejected exactly when it is a
      reserved word: a variable, an operator, a logical or a paren. Any
      other token, quoted or not, is accepted in both modes. */
  lemma ValueAfterOperator(v: string, o: string, x: string, d: GrammarData, partial: bool)
    requires IsVar(v, d) && o in d.operators && x != "" && !IsPartialQuote(x)
    ensures var reserved := x in d.variables || x in d.operators || x in d.logicals || x == "(" || x == ")";
      ValidateTokens([v, o, x], d, partial) == if reserved && !OpensQuote(x) then Fail(OperatorMisplaced) else Pass
  {
    var ts := [v, o, x];
    assert ts[2] == x;
    var reserved := x in d.variables || x in d.operators || x in d.logicals || x == "(" || x == ")";
    assert IsValueToken(x, d) <==> OpensQuote(x) || !reserved;
    assert ParseTerm(ts, d, partial, 0) == if reserved && !OpensQuote(x) then Step(Fail(OperatorMisplaced), 2) else Step(Pass, 3);
    assert ParseMore(ts, d, partial, 3) == Step(Pass, 3);
  }

  /** The lone `"` closes the quote it opens: after an operator it is a
      complete value, even in strict mode. */
  lemma LoneQuoteIsValue(v: string, o: string, d: GrammarData, partial: bool)
    requires IsVar(v, d) && o in d.operators
    ensures ValidateTokens([v, o, "\""], d, partial) == Pass
  {
    var q := "\"";
    assert q[0] == '"' && q[|q| - 1] == '"';
    assert OpensQuote(q) && !IsPartialQuote(q);
    ValueAfterOperator(v, o, q, d, partial);
  }

  /** `( VAR` without its `)` fails in both modes. */
  lemma MissingParen(v: string, d: GrammarData, partial: bool)
    requires IsVar(v, d)
    ensures ValidateTokens(["(", v], d, partial) == Fail(MissingClosingParen)
  {
    var ts := ["(", v];
    assert ParseTerm(ts, d, partial, 1) == Step(Pass, 2);
    assert ParseMore(ts, d, partial, 2) == Step(Pass, 2);
    assert ParseExpr(ts, d, partial, 1) == Step(Pass, 2);
    assert ParseTerm(ts, d, partial, 0) == Step(Fail(MissingClosingParen), 2);
  }

  /** Any well-formed expression opened by `(` and never closed, such as
      `( age > "30"`, fails with the missing-`)` error in both modes: the
      inner expression uses up every token, so no `)` is left to close it. */
  lemma MissingParenGeneral(e: ValidatorGrammar.Expr, d: GrammarData, partial: bool)
    requires ValidatorGrammar.Separated(d) && ValidatorGrammar.WFExpr(e, d, false)
    ensures ValidateTokens(["("] + ValidatorGrammar.ExprTokens(e), d, partial) == Fail(MissingClosingParen)
  {
    var y := ValidatorGrammar.ExprTokens(e);
    var ts := ["("] + y;
    assert ValidatorGrammar.At(ts, 1, y) by {
      forall m | 0 <= m < |y| ensures ts[1 + m] == y[m] { }
    }
    ValidatorGrammar.ExprComplete(ts, d, 1, e);
    ExprModes(ts, d, 1);
    assert ParseExpr(ts, d, partial, 1) == Step(Pass, |ts|);
    assert ParseTerm(ts, d, partial, 0) == Step(Fail(MissingClosingParen), |ts|);
  }

  /** A stray `)` where a term should start fails in both modes, whether it
      comes first (`)(`) or right after `(` (`()`). */
  lemma StrayCloser(d: GrammarData, partial: bool)
    requires ")" !in d.variables
    ensures ValidateTokens([")", "("], d, partial) == Fail(UnexpectedToken(")"))
    ensures ValidateTokens(["(", ")"], d, partial) == Fail(UnexpectedToken(")"))
  {
    assert ParseTerm(["(", ")"], d, partial, 1) == Step(Fail(UnexpectedToken(")")), 1);
  }

  /** A trailing connective leaves a term missing, in both modes. */
  lemma TrailingLogical(v: string, l: string, d: GrammarData, partial: bool)
    requires IsVar(v, d) && l in d.logicals && l !in d.operators
    ensures ValidateTokens([v, l], d, partial) == Fail(UnexpectedEnd)
  {
    var ts := [v, l];
    assert ParseTerm(ts, d, partial, 0) == Step(Pass, 1);
    assert ParseTerm(ts, d, partial, 2) == Step(Fail(UnexpectedEnd), 2);
    assert ParseMore(ts, d, partial, 1) == Step(Fail(UnexpectedEnd), 2);
  }

  /** A comparison followed by a connective and a bare variable, such as
      `age > "30" AND city`, is valid in strict mode. */
  lemma ComparisonThenBare(v: string, o: string, x: string, l: string, w: string, d: GrammarData)
    requires IsVar(v, d) && IsVar(w, d) && o in d.operators && l in d.logicals
    requires |x| >= 2 && OpensQuote(x) && ClosesQuote(x)
    ensures ValidateTokens([v, o, x, l, w], d, false) == Pass
  {
    var ts := [v, o, x, l, w];
    assert ParseTerm(ts, d, false, 0) == Step(Pass, 3);
    assert ParseTerm(ts, d, false, 4) == Step(Pass, 5);
    assert ParseMore(ts, d, false, 5) == Step(Pass, 5);
    assert ParseMore(ts, d, false, 3) == Step(Pass, 5);
    assert ParseExpr(ts, d, false, 0) == Step(Pass, 5);
  }

  /** The token list of `age > "30" AND city`, with a concrete vocabulary. */
  lemma AgeAndCityExample()
    ensures var d := GrammarData(["age", "city"], [">", "="], ["AND", "OR"], map[]);
      ValidateTokens(["age", ">", "\"30\"", "AND", "city"], d, false) == Pass
  {
    var d := GrammarData(["age", "city"], [">", "="], ["AND", "OR"], map[]);
    ComparisonThenBare("age", ">", "\"30\"", "AND", "city", d);
  }
}
